=== FILE: README.md ===
# Post model, rep-h-card discovery and S3 key handling

A Dafny model of the core of a small IndieWeb publishing server. It covers
three parts.

- **The canonical post model of `microformat.ts`.**
  - The `Entry` constructor normalises four source shapes into one record:
    - a bare URL, which gives a stub;
    - a micropub draft;
    - a microformats-2 parser node;
    - a deserialized record of an earlier `Entry`.
  - The `Card` constructor does the same for h-cards.
  - The derived predicates classify an entry (`references`, `allLinks`,
    `isReply`, `isRepost`, `isLike`, `isPhoto`, `isReplyTo`, `isArticle`).
  - The representative-h-card rules of `getRepHCard` pick a page's author
    card.
  - `getHEntry` builds a page's first h-entry, and `getHEntryWithCard`
    puts the representative card in its `author`.
  - `urlsEqual` as written throws on a card's `url` list; that version is
    kept apart from the intended one (see "## Findings").
- **The S3 key rules of `s3publisher.ts`.**
  - `normalizePath`.
  - The effects of `put`, `delete`, `get` and `exists`, on a bucket
    modelled as a map from key to stored object.
- **`flatten` of `util.js`.**

The constructors are total functions over a tagged `Source`. Everything they
can throw is a `Result` error:
- the draft's "url is required" (`UrlRequired`);
- the `TypeError` of calling `map`, `length` or `concat` on an unset field
  (`TypeError(field)`).

A parsed tree builds exactly when `TreeBuilds` holds. It fails only on a
`{value, html}` object among the values of an entry-valued property, at any
depth.

A JavaScript field that holds different things depending on where the entry
came from is a `Field`. It can be:
- unset;
- a string;
- the draft's `{value, html}` content;
- the parser's whole value list.

The model keeps the source's behaviour where it differs from what one would
expect.
- A stub or a draft leaves `photo`, `author`, `replyTo`, `likeOf` and
  `repostOf` unset, so every predicate that reads them throws.
- A tree-built entry stores the parser's value lists in its scalar fields.
  - So `isArticle` compares a list with `undefined`, and is true whenever
    there is no reply, repost, like or photo.
  - `isReplyTo` only ever matches references that were bare URLs.
- The record branch calls `map` on `author`, `replyTo`, `likeOf`, `repostOf`
  and `children`. So it only rebuilds entries whose lists are all present,
  all the way down.
  - The record of a tree that cites a reply target by URL does not round
    trip.
  - Neither does the record of a stub, a draft, or an entry whose `author`
    is the single representative card.

Foreign code is passed in as parameters, so every property holds whatever
that code computes:
- `util.escapeHtml`, `util.autoLink` and `util.getLinks` (`TextUtils`);
- `url.parse` (`UrlParser`);
- `util.inferMimetype`;
- the clock reading a draft's `published` defaults to.

## Model

| member | source | states |
|---|---|---|
| `Wrappers.CollectResults` | microformat.ts:133-141 | `map` with a callback that may throw: success exactly when every element succeeds, the values in order, and otherwise the first failure |
| `MfTree.Prop` | microformat.ts:73-77 | an absent property reads as the empty list; a present one gives its value list |
| `CardBuilder.FromNode` | microformat.ts:226-231 | each of `name`, `photo`, `url` and `uid` is the node's value list for that property, the empty list when the property is absent (no `photo` gives `[]`) |
| `CardBuilder.Build` | microformat.ts:225-239 | a card record is copied field for field; a parser node gives set fields, each the node's value list for `name`, `photo`, `url` and `uid` |
| `CardBuilder.FromValues` | microformat.ts:130-131 | one card per `author` value, in order, each as `new Card(a)` builds it |
| `CardBuilder.FromValue` | microformat.ts:130-131 | an author value that is a nested item gives exactly the card its node builds (so every field is set); a bare string or `{value, html}` object gives a card with none set |
| `EntryBuilder.FromStub` | microformat.ts:99-103 | a stub has its `url` set to the link, empty `syndication` and `children`, and every other field unset |
| `EntryBuilder.FromDraft` | microformat.ts:104-122 | fails with "url is required" exactly when the draft has no url. Otherwise: `url` is the draft's; `published` defaults to the clock; missing content becomes `''`; `content.html` is always `autoLink(escapeHtml(content))`; a missing `name` becomes the content's value; the reference lists stay unset |
| `EntryBuilder.TreeBuilds` | microformat.ts:133-141 | the tree branch throws only on a `{value, html}` object among the values of `in-reply-to`, `like-of`, `repost-of` or `comment`, here or in any nested item or child |
| `EntryBuilder.FromValue` | microformat.ts:133-141 | one value of an entry-valued property builds exactly when it is a string (giving the stub of that URL) or a nested item that builds (giving exactly the entry that node builds); a `{value, html}` object throws a TypeError |
| `EntryBuilder.FromProperty` | microformat.ts:133-138 | each value of an entry-valued property is built in order, one entry per value; the build succeeds exactly when every value builds |
| `EntryBuilder.FromChildNodes` | microformat.ts:79-83 | each structural child is built as a parser node, one entry per child, in order; it succeeds exactly when every child builds |
| `EntryBuilder.FromChildren` | microformat.ts:139-141 | `children` is the built structural children followed by the built `comment` values: its length is the sum of the two, in order; it succeeds exactly when every child and every comment builds |
| `EntryBuilder.ChildrenTreesBuild` | microformat.ts:139-141 | the children build exactly when every structural child satisfies `TreeBuilds` and every `comment` value builds |
| `EntryBuilder.FromTree` | microformat.ts:123-141 | the tree builds exactly when `TreeBuilds` holds, and only throws TypeErrors. A tree entry's fields are the named properties' value lists (empty when absent); `author` is one card per author value; `replyTo`, `likeOf` and `repostOf` are the built `in-reply-to`, `like-of` and `repost-of` values |
| `EntryBuilder.FromRecordRefs` | microformat.ts:154-165 | rebuilding a reference list throws when the list is unset; otherwise it gives back the same entries exactly when each of them can be rebuilt |
| `EntryBuilder.FromRecordList` | microformat.ts:166-169 | rebuilding a list of records gives back the same list exactly when every element can be rebuilt |
| `EntryBuilder.FromRecord` | microformat.ts:142-170 | the record branch reproduces its input exactly when every list it maps over is present all the way down (`Rebuildable`); otherwise it throws a TypeError |
| `EntryBuilder.Build` | microformat.ts:98-171 | four-way dispatch: "url is required" only for a draft without url; a stub's url is the link; a tree builds exactly when `TreeBuilds` holds; a record rebuilds to itself exactly when it is rebuildable; only tree and record entries have children |
| `ReferenceIndex.Urls` | microformat.ts:177 | `map(r => r.url)`: one url per entry, in order |
| `ReferenceIndex.References` | microformat.ts:173-178 | throws when a reference list is unset. Otherwise it lists the urls of `replyTo`, then `repostOf`, then `likeOf`: the length is the sum of the three and the order is fixed |
| `ReferenceIndex.AllLinks` | microformat.ts:180-186 | the references come first; when `content` is set, they are followed by every link found in `content.html`; otherwise there is nothing after them |
| `ReferenceIndex.IsReply` | microformat.ts:188-190 | throws when `replyTo` is unset, otherwise true exactly when it is non-empty |
| `ReferenceIndex.IsRepost` | microformat.ts:192-194 | throws when `repostOf` is unset, otherwise true exactly when it is non-empty |
| `ReferenceIndex.IsLike` | microformat.ts:196-198 | throws when `likeOf` is unset, otherwise true exactly when it is non-empty |
| `ReferenceIndex.IsPhoto` | microformat.ts:200-202 | throws when `photo` is unset. A list or a string is a photo exactly when non-empty; an object without `length` never is |
| `ReferenceIndex.IsReplyTo` | microformat.ts:204-206 | throws exactly when `references()` does; otherwise true exactly when the url string is one of the references |
| `ReferenceIndex.IsArticle` | microformat.ts:208-216 | true exactly when none of reply, repost, like or photo holds, `name` and `content` are set, and `name` is not the string `content.value`. It throws exactly when the short-circuit chain reaches a predicate that throws |
| `RepCardResolver.UrlsEqual` | microformat.ts:65-71 | two values are the same URL exactly when their parsed protocol, host and path agree |
| `RepCardResolver.UidAndUrlArePage` | microformat.ts:37-42 | rule 1's test: `url` and `uid` are both set and both the page's URL |
| `RepCardResolver.UrlIsRelMe` | microformat.ts:46-51 | rule 2's test: `url` is set and equals one of the `rel=me` targets |
| `RepCardResolver.UrlIsPage` | microformat.ts:55-59 | rule 3's test: `url` is set and is the page's URL |
| `RepCardResolver.Filter` | microformat.ts:37-42 | `filter` keeps exactly the accepted cards, and its first element is the first accepted card |
| `RepCardResolver.RepCard` | microformat.ts:36-61 | The result is one of the cards. Rule 1: the first card whose `uid` and `url` are the page. Rule 2: only when rule 1 finds nothing and `rel=me` exists, the first card whose `url` is a `rel=me` target. Rule 3: only with exactly one card, whose `url` is the page. Otherwise none |
| `RepCardResolver.ItemCards` | microformat.ts:33-35 | one card per top-level item, in order, each read from the item's properties |
| `RepCardResolver.RepHCard` | microformat.ts:30-63 | the three rules over the cards of the page's top-level items: the first card passing rule 1; else, when the page has `rel=me` links, the first card whose `url` is one of them; else the only card if its `url` is the page; else none. The result is always one of the items' cards |
| `RepCardResolver.HasAuthor` | microformat.ts:12 | `entry.author != null`: false only for an unset `author`; an empty list counts as an author |
| `RepCardResolver.WithRepCard` | microformat.ts:12-19 | only `author` can change. It becomes the representative card exactly when `author` is set (an empty list included) and a card was found |
| `RepCardResolver.RuleOnePicks` | microformat.ts:36-43 | on a parsed page, rule 1 returns the card of the first item that passes it |
| `RepCardResolver.OwnerCardMatches` | microformat.ts:37-42 | an h-card whose `u-url` and `u-uid` are the page passes rule 1, for a parser that reads a one-element list as its string |
| `RepCardResolver.OwnCardWins` | microformat.ts:33-43 | on a parsed page, an owner's h-card whose `u-url` and `u-uid` are the page is picked by rule 1 over an earlier item that fails the test, whatever the `rel` links |
| `RepCardResolver.UidMatchWins` | microformat.ts:36-43 | a card whose `uid` and `url` are the page wins over an earlier card that does not match |
| `RepCardResolver.RelMeMatch` | microformat.ts:44-53 | a card without `uid` whose `url` is the page's `rel=me` target is chosen by rule 2 |
| `RepCardResolver.SoleCardMatch` | microformat.ts:54-60 | the page's only card, whose `url` is the page, is chosen by rule 3 |
| `RepCardResolver.NoRuleMatches` | microformat.ts:36-61 | two cards without a `uid`+`url` match and no `rel=me`: no representative card |
| `S3Paths.Split` | s3publisher.ts:13 | `split('/')` gives at least one segment, and no segment contains '/' |
| `S3Paths.NonEmpty` | s3publisher.ts:12-14 | `filter(elt => elt != '')` keeps exactly the non-empty segments and is never longer than its input |
| `S3Paths.NonEmptyCounts` | s3publisher.ts:12-14 | the filter keeps each non-empty segment as often as it occurs and drops every empty one: the multiset of the input without `""` |
| `S3Paths.NonEmptyAppend` | s3publisher.ts:12-14 | the filter keeps the order: filtering a concatenation is concatenating the filtered parts |
| `S3Paths.Join` | s3publisher.ts:15 | `join('/')`; `S3Paths.SplitJoin` and `S3Paths.JoinSplit` state that it and `split('/')` undo each other |
| `S3Paths.NormalizePath` | s3publisher.ts:12-16 | the key has no empty segment (no leading, trailing or doubled '/'), and its non-empty segments are the path's, in order |
| `S3Paths.NormalizeIdempotent` | s3publisher.ts:12-16 | normalising twice is normalising once |
| `S3Paths.NormalizeFixesExactlyWellFormed` | s3publisher.ts:12-16 | `normalizePath` leaves a string unchanged exactly when it has no empty segment |
| `S3Paths.NormalizeNeverLonger` | s3publisher.ts:12-16 | the key is never longer than the path |
| `S3Paths.SplitJoin` | s3publisher.ts:13-15 | `split('/')` undoes `join('/')` on slash-free segments |
| `S3Paths.JoinSplit` | s3publisher.ts:13-15 | `join('/')` undoes `split('/')` |
| `S3Paths.EmptySegment` | s3publisher.ts:13-14 | an empty segment of `split('/')` comes from an empty string, a leading or trailing slash, or two adjacent slashes |
| `S3Store.PutContentType` | s3publisher.ts:42 | the stored type is the given one, or else the type inferred from the path |
| `S3Store.NeedsHtmlTwin` | s3publisher.ts:48 | an object needs a `.html` twin exactly when its type is `text/html` and its key lacks the suffix |
| `S3Store.Put` | s3publisher.ts:36-53 | The body goes under the normalised key, with the given type or else the inferred one. An HTML body under a key without `.html` also goes under `key + ".html"`. No other key changes |
| `S3Store.PutAsWritten` | s3publisher.ts:44-52 | as written: only the normalised key is stored, and the call rejects exactly when the `.html` twin was due |
| `S3Store.Delete` | s3publisher.ts:55-63 | the raw path is removed, and `path + ".html"` too for an HTML type on a path without the suffix; no other key changes |
| `S3Store.Get` | s3publisher.ts:65-68 | finds an object exactly when the normalised key is present, and returns what is stored there |
| `S3Store.Exists` | s3publisher.ts:70-79 | holds exactly when `get` finds an object |
| `S3Store.PutThenGet` | s3publisher.ts:36-79 | after `put(p)`, `exists(p)` holds and `get(p)` returns the body and type just stored |
| `S3Store.PutThenGetTwin` | s3publisher.ts:44-68 | after an HTML `put` of a key without `.html`, `get(key + ".html")` returns the same object |
| `S3Store.DeleteMissesNormalizedKey` | s3publisher.ts:55-63 | `delete` does not normalise: after `put(p)` of a path that is not its own normal form, `delete(p)` leaves the object and `exists(p)` still holds |
| `S3Store.DeleteUndoesHtmlPut` | s3publisher.ts:55-63 | on a well-formed key new to the bucket, `delete` after an HTML `put` restores the bucket |
| `S3Store.HtmlPostScenario` | test/mirrorpublisher.ts:66-84 | `put('post', html, 'text/html')` stores exactly `post` and `post.html`, and `get` returns the body and type under both |
| `S3Store.HtmlPostDeleted` | test/mirrorpublisher.ts:104-106 | `delete('post', 'text/html')` then removes both keys |
| `S3Store.PutAsWrittenLosesHtmlTwin` | s3publisher.ts:44-52 | as written, an HTML `put` of a key without `.html` rejects and never stores the twin that the corrected `put` stores |
| `UtilFlatten.Flatten` | util.js:36-40 | `flatten([])` is `[]`; otherwise the result is the in-order concatenation of the inner lists |
| `UtilFlatten.Reduce` | util.js:39 | `reduce` with `concat` appends the remaining lists to the accumulator in order |
| `UtilFlatten.FlattenLength` | util.js:36-40 | the length of the result is the sum of the inner lengths |
| `UtilFlatten.FlattenSingle` | util.js:39 | `flatten([a])` is `a` |
| `UtilFlatten.FlattenMembers` | util.js:36-40 | an element is in the result exactly when it is in one of the inner lists |
| `UtilFlatten.FlattenAppend` | util.js:36-40 | flattening a concatenation of outer lists concatenates their flattenings |
| `UtilFlatten.ConcatAllAppend` | util.js:36-40 | the reference concatenation that `Flatten` equals distributes over concatenating outer lists |
| `EntryProperties.ItemsOnlyBuilds` | microformat.ts:133-141 | a tree whose entry-valued properties hold only nested items, all the way down, builds without a throw |
| `EntryProperties.TreeRebuildable` | microformat.ts:123-170 | if a tree's entry-valued properties hold only nested items, all the way down, it builds and its entry can be rebuilt by the record branch |
| `EntryProperties.TreeRoundTrip` | microformat.ts:123-170 | such a tree builds, and building from the record of the built entry gives the same entry as building from the tree, nested cards and entries included |
| `EntryProperties.StubReferenceBlocksRebuild` | microformat.ts:133-170 | a bare URL in `in-reply-to`, `like-of`, `repost-of` or `comment` becomes a stub, and the built entry's record can then not be rebuilt |
| `EntryProperties.ReplyByUrlDoesNotRoundTrip` | microformat.ts:133-149 | a node whose only property is `in-reply-to: ["https://example.com/a"]` builds. Its record throws on the nested stub's missing `author` |
| `EntryProperties.TreeIsReplyTo` | microformat.ts:204-206 | on a tree entry, `isReplyTo(u)` holds exactly when `u` is a bare string among the `in-reply-to`, `repost-of` and `like-of` values |
| `EntryProperties.BuiltUrl` | microformat.ts:99-103 | a built reference has the url string `u` exactly when it was the bare string `u` |
| `EntryProperties.TreeIsArticle` | microformat.ts:208-216 | on a tree entry, `isArticle` is true exactly when there are no `in-reply-to`, `repost-of`, `like-of` or `photo` values |
| `EntryProperties.ArticleExcludesKinds` | microformat.ts:208-212 | an article is not a reply, repost, like or photo, and a reply (or a repost) is not an article |
| `EntryProperties.StubPredicatesThrow` | microformat.ts:173-202 | on a stub, `references`, `isReply`, `isArticle`, `isPhoto` and `isReplyTo` throw, and so does the record rebuild |
| `EntryProperties.DraftPredicatesThrow` | microformat.ts:173-202 | on a built draft, `references`, `isArticle`, `isRepost`, `isLike` and `isPhoto` throw, and so does the record rebuild |
| `EntryProperties.RepAuthorBlocksRebuild` | microformat.ts:142-152 | once `getHEntryWithCard` has set a single representative card as `author`, the entry's record throws on `author.map` |
| `PageEntry.GetHEntry` | microformat.ts:23-28 | a page without h-entry items throws; otherwise the first item builds exactly when `TreeBuilds` holds for it, with its `url` and `author` read from that item |
| `PageEntry.GetHEntryWithCard` | microformat.ts:9-21 | with the intended rep-h-card rules (`RepHCard`, not the throwing comparison as written): succeeds exactly when `getHEntry` does; only `author` can differ from `getHEntry`'s entry; it is the representative card whenever one is found, and nothing changes when none is |
| `PageEntry.TreeEntryTakesRepCard` | microformat.ts:12-15 | every tree-built entry, even one without an `author` property, takes the representative card as its `author` |
| `RepCardAsWritten.UrlsEqualAsWritten` | microformat.ts:65-71 | as written, the comparison throws unless both values are strings, and otherwise compares their parsed parts |
| `RepCardAsWritten.UidTest` | microformat.ts:37-42 | as written, rule 1's test throws on a card whose `url` and `uid` are set but whose `url` is not a string |
| `RepCardAsWritten.RelMeTest` | microformat.ts:47-50 | as written, rule 2's test of one target throws exactly when `url` is set and not a string |
| `RepCardAsWritten.SomeOrThrow` | microformat.ts:47-50 | `some` with a throwing test: when no test throws, true exactly when some target passes; a throw comes from one of the targets |
| `RepCardAsWritten.FilterOrThrow` | microformat.ts:37-42 | `filter` with a throwing test: it throws exactly when some card's test throws, and otherwise keeps exactly the accepted cards |
| `RepCardAsWritten.RepCardThrowing` | microformat.ts:36-61 | as written, the rules throw whenever any card's rule 1 test throws; a card they return is one of the cards |
| `RepCardAsWritten.RepHCardThrowing` | microformat.ts:30-63 | as written, `getRepHCard` rejects on every page that has an h-card, and finds none on a page without |
| `RepCardAsWritten.GetHEntryWithCardAsWritten` | microformat.ts:9-21 | as written, `getHEntryWithCard` keeps `getHEntry`'s failure, rejects whenever the entry builds and the page has an h-card, and returns the bare entry on a page without h-cards |
| `RepCardAsWritten.OwnCardRejected` | microformat.ts:30-43 | on a page holding only its owner's h-card, the as-written rules reject while the intended rules pick that card |

## Left out

- The HTML parser (`microformat-node`) and the promise plumbing of `getHEntry`, `getHEntryWithCard` and `getRepHCard`: they are external and asynchronous. The parsed pages are inputs, one per parse, and a rejection is a `Failure`.
- `util.escapeHtml`, `util.autoLink`, `util.getLinks`, `util.inferMimetype` and `url.parse` are not part of this model. They are function parameters.
- `RepCardResolver.UrlsEqual`: `url.parse` is any function of the value passed, a card's `url` list included. Node's `url.parse` throws on a value that is not a string; that behaviour is modelled separately in `RepCardAsWritten` and recorded under "## Findings".
- The clock read by `new Date().toISOString()` is the `now` parameter.
- `commit` reads the clock through `toLocaleString` and is not modelled.
- The AWS SDK calls are not modelled: the bucket is a map. The `guard` concurrency limits are concurrency concerns.
- `list` and its truncated paging are left out: network paging.
- S3's own failures are not modelled, except a missing key, which `get` reports as `None` and `exists` as false.
- The filesystem functions of `util.js` (`mkdirRecursive`, `writeFile`, `walkDir`, `dump`) are I/O.
- `domain.ts` declares interfaces only.
- `chunk` is not defined in util.js; only the tests use it.
- The draft test `mf.h === 'entry'` is not modelled. A `Source` names its shape directly, so an object with another `h` and no `properties` is a `Record` by construction.
- The record branch copies `syndication` without calling `map`, so it never throws on it. The model's `syndication` is always a list, so an unset `syndication` is not represented.
- The deserialized record is the built `Entry` value itself. JSON serialisation, which would drop the unset fields, is not modelled.
- `EntryBuilder.FromDraft`: the draft branch also writes `''` into the caller's object when it has no `content` (microformat.ts:113-114). The model's draft is an immutable input, so that write-back is not modelled; only the built entry's content is.
- One might expect every built entry's record to rebuild to the same entry. The record branch (microformat.ts:149-169) keeps that only for records whose lists are all present:
  - `EntryBuilder.FromRecord` rebuilds only `Rebuildable` entries.
  - `EntryProperties.TreeRoundTrip` is stated for trees whose entry-valued properties hold nested items only.
  - Stubs, drafts, trees citing a reference by URL, and entries carrying a representative author throw instead.
- The draft's "url is required" (microformat.ts:106-107) is not the only failure: a `{value, html}` object among an entry-valued property's values takes the record branch and throws a TypeError on its missing `author` (microformat.ts:133-149).
- The predicates `isReply`, `isRepost`, `isLike` and `isPhoto` (microformat.ts:188-202) read `length` of a field a stub or a draft leaves unset, so on those entries they throw rather than return false.
- Rep-card candidates are only the parser's top-level items (`mf.items`, microformat.ts:33); h-cards nested inside other items are not candidates.
- Absent `name` defaults to the content only for drafts. Tree and record entries keep the empty list or whatever the record holds; this asymmetry is kept.

## Findings

| source | as written | input that shows it | evidently intended | confidence | as-written member | corrected member |
|---|---|---|---|---|---|---|
| microformat.ts:65-67 | `urlsEqual(c.url, url)` hands the card's `url` to `url.parse`. A card read from a parser node holds a value list there, and Node's `url.parse` throws a TypeError on anything but a string. So `getRepHCard`, and with it `getHEntryWithCard`, rejects on every page that has an h-card | a page whose only item is an h-card with `u-url` and `u-uid` both the page's URL | compare the URL the card's list holds with the page's URL, so that rule 1 picks that card | not executed | `RepCardAsWritten.OwnCardRejected` (about `RepCardAsWritten.RepHCardThrowing`), and `RepCardAsWritten.GetHEntryWithCardAsWritten` for `getHEntryWithCard` | `RepCardResolver.RepHCard`, with `RepCardResolver.OwnCardWins`, used by `PageEntry.GetHEntryWithCard` |
| s3publisher.ts:44-52 | The second write runs in a plain `function` callback. There `this` is not the publisher, so `this.putObject(params)` throws. The `.html` twin is never stored and the returned promise rejects | `put('post', '<html>…</html>', 'text/html')` | store the body under both `post` and `post.html`, as the comment at lines 46-47 states and test/mirrorpublisher.ts:47 and 76-80 expect | not executed | `S3Store.PutAsWrittenLosesHtmlTwin` (about `S3Store.PutAsWritten`) | `S3Store.Put`, with `S3Store.PutThenGetTwin` |

=== FILE: card_builder.dfy ===
/** The `Card` constructor (microformat.ts:225-239): a parser node is read
    property by property, anything else is copied field by field. */
module CardBuilder {
  import opened MfTree
  import opened PostModel

  /** The parser-tree branch: each field is the property's value list, the
      empty list when the node has no such property. */
  function FromNode(n: Node): (c: Card)
    ensures c.name == Values(Prop(n, "name")) && c.photo == Values(Prop(n, "photo"))
    ensures c.url == Values(Prop(n, "url")) && c.uid == Values(Prop(n, "uid"))
    ensures !HasProperty(n, "name") ==> c.name == Values([])
    ensures !HasProperty(n, "photo") ==> c.photo == Values([])
    ensures !HasProperty(n, "url") ==> c.url == Values([])
    ensures !HasProperty(n, "uid") ==> c.uid == Values([])
  {
    Card(Values(Prop(n, "name")), Values(Prop(n, "photo")),
         Values(Prop(n, "url")), Values(Prop(n, "uid")))
  }

  /** `new Card(mf)`: dispatch on whether the source has `properties`. */
  function Build(src: CardSource): (c: Card)
    ensures src.CardRecord? ==> c == src.record
    ensures src.CardNode? ==> IsSet(c.name) && IsSet(c.photo) && IsSet(c.url) && IsSet(c.uid)
    ensures src.CardNode? ==> c.name == Values(Prop(src.node, "name")) && c.photo == Values(Prop(src.node, "photo"))
    ensures src.CardNode? ==> c.url == Values(Prop(src.node, "url")) && c.uid == Values(Prop(src.node, "uid"))
  {
    match src
    case CardNode(n) => FromNode(n)
    case CardRecord(rec) => Card(rec.name, rec.photo, rec.url, rec.uid)
  }

  /** `new Card(a)` on one value of an entry's `author` property. A string
      or a `{value, html}` object has no `properties` and no card fields, so
      it takes the record branch and every field comes out unset. */
  function FromValue(v: Value): (c: Card)
    ensures v.Item? ==> c == FromNode(v.node)
    ensures v.Item? ==> IsSet(c.name) && IsSet(c.photo) && IsSet(c.url) && IsSet(c.uid)
    ensures !v.Item? ==> !IsSet(c.name) && !IsSet(c.photo) && !IsSet(c.url) && !IsSet(c.uid)
  {
    match v
    case Item(n) => Build(CardNode(n))
    case _ => Build(CardRecord(BlankCard))
  }

  /** `prop(mf, 'author').map(a => new Card(a))`. */
  function FromValues(vs: seq<Value>): (cs: seq<Card>)
    ensures |cs| == |vs|
    ensures forall i :: 0 <= i < |vs| ==> cs[i] == FromValue(vs[i])
  {
    seq(|vs|, i requires 0 <= i < |vs| => FromValue(vs[i]))
  }
}

=== FILE: entry_builder.dfy ===
/** The `Entry` constructor (microformat.ts:98-171), one function per source
    shape and a dispatcher over the tagged `Source`. */
module EntryBuilder {
  import opened Wrappers
  import opened MfTree
  import opened PostModel
  import CardBuilder

  /** A reference known only by its URL (microformat.ts:99-103): `url` is
      the string, `syndication` and `children` are empty, and nothing else
      is set. */
  function FromStub(link: string): (e: Entry)
    ensures e.url == Text(link) && e.syndication == [] && e.children == []
    ensures !IsSet(e.name) && !IsSet(e.published) && !IsSet(e.content) && !IsSet(e.photo)
    ensures e.author.NoAuthor? && e.replyTo.NoRefs? && e.likeOf.NoRefs? && e.repostOf.NoRefs?
  {
    Entry(Unset, Unset, Unset, Unset, Text(link), NoAuthor, [], NoRefs, NoRefs, NoRefs, [])
  }

  /** A micropub draft (microformat.ts:104-122). `now` is the clock reading
      the source takes with `new Date().toISOString()`. */
  function FromDraft(d: Draft, utils: TextUtils, now: string): (r: Result<Entry, Error>)
    ensures r.Failure? <==> d.url.None?
    ensures r.Failure? ==> r.error == UrlRequired
    ensures r.Success? ==> r.value.url == Text(d.url.value)
    ensures r.Success? ==> r.value.published == Text(d.published.GetOr(now))
    ensures r.Success? ==>
      var text := d.content.GetOr("");
      r.value.content == Rich(text, utils.autoLink(utils.escapeHtml(text)))
    ensures r.Success? && d.name.Some? ==> r.value.name == Text(d.name.value)
    ensures r.Success? && d.name.None? ==> r.value.name == Text(ContentValue(r.value.content).value)
    ensures r.Success? ==> r.value.syndication == [] && r.value.children == []
    ensures r.Success? ==> !IsSet(r.value.photo) && r.value.author.NoAuthor?
    ensures r.Success? ==> r.value.replyTo.NoRefs? && r.value.likeOf.NoRefs? && r.value.repostOf.NoRefs?
  {
    if d.url.None? then Failure(UrlRequired)
    else
      var text := if d.content.Some? then d.content.value else "";
      var content := Rich(text, utils.autoLink(utils.escapeHtml(text)));
      var published := if d.published.Some? then d.published.value else now;
      var name := if d.name.Some? then d.name.value else content.value;
      Success(Entry(Text(name), Text(published), content, Unset, Text(d.url.value),
                    NoAuthor, [], NoRefs, NoRefs, NoRefs, []))
  }

  /** The properties whose values the parser-tree branch builds as entries
      (microformat.ts:133-141). */
  const EntryValued: seq<string> := ["in-reply-to", "like-of", "repost-of", "comment"]

  /** A value of an entry-valued property that `new Entry(r)` builds without
      a throw: a string, or a nested item that builds in turn. */
  ghost predicate ValueBuilds(v: Value)
    decreases v
  {
    match v
    case Str(_) => true
    case Embedded(_, _) => false
    case Item(n) => TreeBuilds(n)
  }

  /** A parser node the tree branch builds without a throw: no `{value,
      html}` object among the values of `in-reply-to`, `like-of`,
      `repost-of` or `comment`, in this node or in any node below it. Every
      other property is copied and cannot make the build throw. */
  ghost predicate TreeBuilds(n: Node)
    decreases n, 1
  {
    && ValuesBuild(n, "in-reply-to") && ValuesBuild(n, "like-of")
    && ValuesBuild(n, "repost-of") && ValuesBuild(n, "comment")
    && (forall i :: 0 <= i < |n.children| ==> TreeBuilds(n.children[i]))
  }

  /** Every value of the named property builds. */
  ghost predicate ValuesBuild(n: Node, name: string)
    decreases n, 0
  {
    PropIsSmaller(n, name);
    forall i :: 0 <= i < |Prop(n, name)| ==> ValueBuilds(Prop(n, name)[i])
  }

  /** `new Entry(r)` on one value of an entry-valued property: a string is a
      stub, a nested item is a parser node, and a `{value, html}` object
      falls to the record branch, which throws on its missing `author`. */
  function FromValue(v: Value): (r: Result<Entry, Error>)
    decreases v
    ensures r.Failure? ==> r.error.TypeError?
    ensures r.Success? <==> ValueBuilds(v)
    ensures v.Str? ==> r == Success(FromStub(v.s))
    ensures v.Item? ==> r == FromTree(v.node)
  {
    match v
    case Str(link) => Success(FromStub(link))
    case Item(n) => FromTree(n)
    case Embedded(_, _) => Failure(TypeError("author"))
  }

  /** Builds each value of the property, in order; the first throw wins. */
  function FromProperty(n: Node, name: string): (r: Result<seq<Entry>, Error>)
    decreases n, 0
    ensures r.Failure? ==> r.error.TypeError?
    ensures r.Success? ==> |r.value| == |Prop(n, name)|
    ensures r.Success? ==> forall i :: 0 <= i < |Prop(n, name)| ==>
                             FromValue(Prop(n, name)[i]) == Success(r.value[i])
    ensures r.Success? <==> forall i :: 0 <= i < |Prop(n, name)| ==> FromValue(Prop(n, name)[i]).Success?
    ensures r.Success? <==> ValuesBuild(n, name)
  {
    var vs := Prop(n, name);
    PropIsSmaller(n, name);
    CollectResults(seq(|vs|, i requires 0 <= i < |vs| => FromValue(vs[i])))
  }

  /** The node's structural children, each built as a parser node. */
  function FromChildNodes(n: Node): (r: Result<seq<Entry>, Error>)
    decreases n, 0
    ensures r.Failure? ==> r.error.TypeError?
    ensures r.Success? ==> |r.value| == |n.children|
    ensures r.Success? ==> forall i :: 0 <= i < |n.children| ==>
                             FromTree(n.children[i]) == Success(r.value[i])
    ensures r.Success? <==> forall i :: 0 <= i < |n.children| ==> FromTree(n.children[i]).Success?
    ensures r.Success? <==> forall i :: 0 <= i < |n.children| ==> TreeBuilds(n.children[i])
  {
    CollectResults(seq(|n.children|, i requires 0 <= i < |n.children| => FromTree(n.children[i])))
  }

  /** `children(mf).concat(prop(mf, 'comment'))`, each built in order: the
      structural children first, then the `comment` values. */
  function FromChildren(n: Node): (r: Result<seq<Entry>, Error>)
    decreases n, 1
    ensures r.Failure? ==> r.error.TypeError?
    ensures r.Success? ==> |r.value| == |n.children| + |Prop(n, "comment")|
    ensures r.Success? ==> forall i :: 0 <= i < |n.children| ==>
                             FromTree(n.children[i]) == Success(r.value[i])
    ensures r.Success? ==> forall j :: 0 <= j < |Prop(n, "comment")| ==>
                             FromValue(Prop(n, "comment")[j]) == Success(r.value[|n.children| + j])
    ensures r.Success? <==>
      && (forall i :: 0 <= i < |n.children| ==> FromTree(n.children[i]).Success?)
      && (forall j :: 0 <= j < |Prop(n, "comment")| ==> FromValue(Prop(n, "comment")[j]).Success?)
  {
    var kids :- FromChildNodes(n);
    var comments :- FromProperty(n, "comment");
    AppendIndex(kids, comments);
    Success(kids + comments)
  }

  /** The children build exactly when every structural child satisfies
      `TreeBuilds` and every `comment` value builds. */
  lemma {:induction false} ChildrenTreesBuild(n: Node)
    ensures FromChildren(n).Success? <==>
      (forall i :: 0 <= i < |n.children| ==> TreeBuilds(n.children[i])) && ValuesBuild(n, "comment")
  {
    assert FromChildren(n).Success? <==>
      FromChildNodes(n).Success? && FromProperty(n, "comment").Success?;
  }

  /** The parser-tree branch (microformat.ts:123-141). */
  function FromTree(n: Node): (r: Result<Entry, Error>)
    decreases n, 2
    ensures r.Failure? ==> r.error.TypeError?
    ensures r.Success? <==> TreeBuilds(n)
    ensures r.Success? ==>
      && r.value.name == Values(Prop(n, "name"))
      && r.value.published == Values(Prop(n, "published"))
      && r.value.content == Values(Prop(n, "content"))
      && r.value.photo == Values(Prop(n, "photo"))
      && r.value.url == Values(Prop(n, "url"))
      && r.value.syndication == Prop(n, "syndication")
    ensures r.Success? ==> r.value.author == Authors(CardBuilder.FromValues(Prop(n, "author")))
    ensures r.Success? ==>
      && r.value.replyTo.Refs? && r.value.likeOf.Refs? && r.value.repostOf.Refs?
      && FromProperty(n, "in-reply-to") == Success(r.value.replyTo.entries)
      && FromProperty(n, "like-of") == Success(r.value.likeOf.entries)
      && FromProperty(n, "repost-of") == Success(r.value.repostOf.entries)
      && FromChildren(n) == Success(r.value.children)
  {
    var cards := CardBuilder.FromValues(Prop(n, "author"));
    var replyTo :- FromProperty(n, "in-reply-to");
    var likeOf :- FromProperty(n, "like-of");
    var repostOf :- FromProperty(n, "repost-of");
    var children :- FromChildren(n);
    Success(Entry(
      Values(Prop(n, "name")), Values(Prop(n, "published")), Values(Prop(n, "content")),
      Values(Prop(n, "photo")), Values(Prop(n, "url")), Authors(cards),
      Prop(n, "syndication"), Refs(replyTo), Refs(likeOf), Refs(repostOf), children))
  }

  /** `mf.xs.map(r => new Entry(r))` in the record branch: throws when the
      field is unset, otherwise rebuilds each nested record in order. */
  function FromRecordRefs(refs: Refs, field: string): (r: Result<seq<Entry>, Error>)
    decreases refs, 1
    ensures r.Failure? ==> r.error.TypeError?
    ensures r.Success? ==> refs.Refs? && r.value == refs.entries
    ensures refs.NoRefs? ==> r == Failure(TypeError(field))
    ensures r.Success? <==> refs.Refs? && forall i :: 0 <= i < |refs.entries| ==> Rebuildable(refs.entries[i])
  {
    match refs
    case NoRefs => Failure(TypeError(field))
    case Refs(es) => FromRecordList(es)
  }

  function FromRecordList(es: seq<Entry>): (r: Result<seq<Entry>, Error>)
    decreases es, 0
    ensures r.Failure? ==> r.error.TypeError?
    ensures r.Success? ==> r.value == es
    ensures r.Success? <==> forall i :: 0 <= i < |es| ==> Rebuildable(es[i])
  {
    CollectResults(seq(|es|, i requires 0 <= i < |es| => FromRecord(es[i])))
  }

  /** The deserialized-record branch (microformat.ts:142-170): a field by
      field copy whose nested cards and entries are rebuilt. It throws when a
      list it maps over is unset, or when `author` is a single card. */
  function FromRecord(e: Entry): (r: Result<Entry, Error>)
    decreases e, 2
    ensures r.Success? ==> r.value == e
    ensures r.Success? <==> Rebuildable(e)
    ensures r.Failure? ==> r.error.TypeError?
  {
    var author :-
      match e.author
      case Authors(cs) =>
        var cards := seq(|cs|, i requires 0 <= i < |cs| => CardBuilder.Build(CardRecord(cs[i])));
        assert cards == cs;
        Success(Authors(cards))
      case _ => Failure(TypeError("author"));
    var replyTo :- FromRecordRefs(e.replyTo, "replyTo");
    var likeOf :- FromRecordRefs(e.likeOf, "likeOf");
    var repostOf :- FromRecordRefs(e.repostOf, "repostOf");
    var children :- FromRecordList(e.children);
    Success(Entry(e.name, e.published, e.content, e.photo, e.url, author, e.syndication,
                  Refs(replyTo), Refs(likeOf), Refs(repostOf), children))
  }

  /** `new Entry(mf)`: the four-way dispatch of microformat.ts:101, 104, 123
      and 142. Only a draft can fail validation; only a record or a tree
      holding a `{value, html}` reference can throw a TypeError. */
  function Build(src: Source, utils: TextUtils, now: string): (r: Result<Entry, Error>)
    ensures r.Failure? && r.error == UrlRequired <==> src.Micropub? && src.draft.url.None?
    ensures src.Stub? ==> r.Success? && r.value.url == Text(src.link)
    ensures src.Micropub? && r.Success? ==> r.value.url == Text(src.draft.url.value)
    ensures src.Record? ==> (r.Success? <==> Rebuildable(src.record))
    ensures src.Record? && r.Success? ==> r.value == src.record
    ensures src.Parsed? ==> (r.Success? <==> TreeBuilds(src.node))
    ensures r.Success? ==> r.value.children == [] || src.Parsed? || src.Record?
  {
    match src
    case Stub(link) => Success(FromStub(link))
    case Micropub(d) => FromDraft(d, utils, now)
    case Parsed(n) => FromTree(n)
    case Record(rec) => FromRecord(rec)
  }
}

=== FILE: entry_properties.dfy ===
/** Properties that relate several operations of microformat.ts: the record
    round trip of tree-built entries, and what the derived predicates of
    `Entry` (microformat.ts:173-216) say about entries of each origin. */
module EntryProperties {
  import opened Wrappers
  import opened MfTree
  import opened PostModel
  import opened EntryBuilder
  import opened ReferenceIndex
  import RepCardResolver

  /** Every entry-valued property of the node, and of every node below it,
      holds nested items only: no bare URL string that would become a stub. */
  ghost predicate ItemsOnly(n: Node)
    decreases n
  {
    PropIsSmaller(n, "in-reply-to");
    PropIsSmaller(n, "like-of");
    PropIsSmaller(n, "repost-of");
    PropIsSmaller(n, "comment");
    && (forall k, i :: 0 <= k < |EntryValued| && 0 <= i < |Prop(n, EntryValued[k])| ==>
          Prop(n, EntryValued[k])[i].Item? && ItemsOnly(Prop(n, EntryValued[k])[i].node))
    && (forall i :: 0 <= i < |n.children| ==> ItemsOnly(n.children[i]))
  }

  /** A tree whose entry-valued properties hold nested items only, all the
      way down, has no `{value, html}` object there either: it builds. */
  lemma {:induction false} ItemsOnlyBuilds(n: Node)
    requires ItemsOnly(n)
    ensures TreeBuilds(n)
    decreases n, 1
  {
    assert EntryValued[0] == "in-reply-to" && EntryValued[1] == "like-of";
    assert EntryValued[2] == "repost-of" && EntryValued[3] == "comment";
    ItemsOnlyValuesBuild(n, 0);
    ItemsOnlyValuesBuild(n, 1);
    ItemsOnlyValuesBuild(n, 2);
    ItemsOnlyValuesBuild(n, 3);
    forall i | 0 <= i < |n.children|
      ensures TreeBuilds(n.children[i])
    {
      ItemsOnlyBuilds(n.children[i]);
    }
  }

  /** The values of one entry-valued property of such a tree all build. */
  lemma {:induction false} ItemsOnlyValuesBuild(n: Node, k: int)
    requires 0 <= k < |EntryValued| && ItemsOnly(n)
    ensures ValuesBuild(n, EntryValued[k])
    decreases n, 0
  {
    forall i | 0 <= i < |Prop(n, EntryValued[k])|
      ensures ValueBuilds(Prop(n, EntryValued[k])[i])
    {
      var v := Prop(n, EntryValued[k])[i];
      assert v < n;
      ItemsOnlyBuilds(v.node);
    }
  }

  /** One built value of an entry-valued property is rebuildable. */
  lemma {:induction false} ValueRebuildable(n: Node, k: int, i: int, e: Entry)
    requires 0 <= k < |EntryValued| && 0 <= i < |Prop(n, EntryValued[k])|
    requires ItemsOnly(n)
    requires EntryBuilder.FromValue(Prop(n, EntryValued[k])[i]) == Success(e)
    ensures Rebuildable(e)
    decreases n, 0
  {
    var v := Prop(n, EntryValued[k])[i];
    assert v < n;
    TreeRebuildable(v.node);
  }

  /** The entries built from one entry-valued property are rebuildable. */
  lemma {:induction false} PropertyRebuildable(n: Node, k: int, es: seq<Entry>)
    requires 0 <= k < |EntryValued| && ItemsOnly(n)
    requires FromProperty(n, EntryValued[k]) == Success(es)
    ensures forall i :: 0 <= i < |es| ==> Rebuildable(es[i])
    decreases n, 1
  {
    forall i | 0 <= i < |es|
      ensures Rebuildable(es[i])
    {
      ValueRebuildable(n, k, i, es[i]);
    }
  }

  /** The entries built from the children and comments are rebuildable. */
  lemma {:induction false} ChildrenRebuildable(n: Node, es: seq<Entry>)
    requires ItemsOnly(n) && FromChildren(n) == Success(es)
    ensures forall i :: 0 <= i < |es| ==> Rebuildable(es[i])
    decreases n, 1
  {
    forall i | 0 <= i < |es|
      ensures Rebuildable(es[i])
    {
      if i < |n.children| {
        TreeRebuildable(n.children[i]);
      } else {
        var comment := 3;
        assert EntryValued[comment] == "comment";
        ValueRebuildable(n, comment, i - |n.children|, es[i]);
      }
    }
  }

  /** Every list of a tree-built entry whose entry-valued properties hold
      only nested items is present, all the way down, so the record branch
      can rebuild it. */
  lemma {:induction false} TreeRebuildable(n: Node)
    requires ItemsOnly(n)
    ensures FromTree(n).Success? && Rebuildable(FromTree(n).value)
    decreases n, 2
  {
    ItemsOnlyBuilds(n);
    var e := FromTree(n).value;
    assert EntryValued[0] == "in-reply-to" && EntryValued[1] == "like-of" && EntryValued[2] == "repost-of";
    PropertyRebuildable(n, 0, e.replyTo.entries);
    PropertyRebuildable(n, 1, e.likeOf.entries);
    PropertyRebuildable(n, 2, e.repostOf.entries);
    ChildrenRebuildable(n, e.children);
    RebuildableFromParts(e);
  }

  /** `Rebuildable` one level at a time. */
  lemma RebuildableFromParts(e: Entry)
    requires e.author.Authors? && e.replyTo.Refs? && e.likeOf.Refs? && e.repostOf.Refs?
    requires forall i :: 0 <= i < |e.replyTo.entries| ==> Rebuildable(e.replyTo.entries[i])
    requires forall i :: 0 <= i < |e.likeOf.entries| ==> Rebuildable(e.likeOf.entries[i])
    requires forall i :: 0 <= i < |e.repostOf.entries| ==> Rebuildable(e.repostOf.entries[i])
    requires forall i :: 0 <= i < |e.children| ==> Rebuildable(e.children[i])
    ensures Rebuildable(e)
  {
  }

  /** The round trip of microformat.ts:142-170 on tree-built entries: the
      record of an entry built from such a tree rebuilds to the same entry,
      nested cards and entries included. */
  lemma TreeRoundTrip(n: Node, utils: TextUtils, now: string)
    requires ItemsOnly(n)
    ensures Build(Parsed(n), utils, now).Success?
    ensures Build(Record(Build(Parsed(n), utils, now).value), utils, now) == Build(Parsed(n), utils, now)
  {
    TreeRebuildable(n);
  }

  /** A bare URL in an entry-valued property becomes a stub, which has no
      `author` list, so the record of the built entry cannot be rebuilt:
      the round trip fails for any tree that cites a reference by URL. */
  lemma StubReferenceBlocksRebuild(n: Node, k: int, i: int)
    requires FromTree(n).Success?
    requires 0 <= k < |EntryValued| && 0 <= i < |Prop(n, EntryValued[k])|
    requires Prop(n, EntryValued[k])[i].Str?
    ensures FromRecord(FromTree(n).value).Failure?
  {
    var e := FromTree(n).value;
    TreeParts(n, e);
    var d := StubAt(n, e, k, i);
    NestedBlocksRebuild(e, d);
  }

  /** `e` is made of what the tree branch builds from `n`'s entry-valued
      properties and children. */
  ghost predicate PartsBuilt(n: Node, e: Entry) {
    && e.replyTo.Refs? && e.likeOf.Refs? && e.repostOf.Refs?
    && FromProperty(n, "in-reply-to") == Success(e.replyTo.entries)
    && FromProperty(n, "like-of") == Success(e.likeOf.entries)
    && FromProperty(n, "repost-of") == Success(e.repostOf.entries)
    && FromChildren(n) == Success(e.children)
  }

  lemma TreeParts(n: Node, e: Entry)
    requires FromTree(n) == Success(e)
    ensures PartsBuilt(n, e)
  {
  }

  /** The stub a bare URL among the values of an entry-valued property
      becomes, and where it sits in the built entry. */
  lemma StubAt(n: Node, e: Entry, k: int, i: int) returns (d: Entry)
    requires PartsBuilt(n, e)
    requires 0 <= k < |EntryValued| && 0 <= i < |Prop(n, EntryValued[k])|
    requires Prop(n, EntryValued[k])[i].Str?
    ensures d == FromStub(Prop(n, EntryValued[k])[i].s) && NestedIn(d, e)
  {
    if k == 0 {
      assert EntryValued[k] == "in-reply-to";
      StubValueNotRebuildable(n, "in-reply-to", e.replyTo.entries, i);
      d := e.replyTo.entries[i];
    } else if k == 1 {
      assert EntryValued[k] == "like-of";
      StubValueNotRebuildable(n, "like-of", e.likeOf.entries, i);
      d := e.likeOf.entries[i];
    } else if k == 2 {
      assert EntryValued[k] == "repost-of";
      StubValueNotRebuildable(n, "repost-of", e.repostOf.entries, i);
      d := e.repostOf.entries[i];
    } else {
      assert EntryValued[k] == "comment";
      d := StubInComments(n, e.children, i);
    }
  }

  /** A bare URL among the `comment` values becomes a stub among the
      children, after the structural ones. */
  lemma StubInComments(n: Node, children: seq<Entry>, i: int) returns (d: Entry)
    requires FromChildren(n) == Success(children)
    requires 0 <= i < |Prop(n, "comment")| && Prop(n, "comment")[i].Str?
    ensures d == FromStub(Prop(n, "comment")[i].s) && d in children
  {
    d := children[|n.children| + i];
  }

  /** `d` is one of the entries nested directly in `e`. */
  ghost predicate NestedIn(d: Entry, e: Entry) {
    || (e.replyTo.Refs? && d in e.replyTo.entries)
    || (e.likeOf.Refs? && d in e.likeOf.entries)
    || (e.repostOf.Refs? && d in e.repostOf.entries)
    || d in e.children
  }

  /** One nested entry without an `author` list (a stub, say) stops the
      whole rebuild. */
  lemma NestedBlocksRebuild(e: Entry, d: Entry)
    requires NestedIn(d, e) && !d.author.Authors?
    ensures FromRecord(e).Failure?
  {
  }

  /** A bare URL among an entry-valued property's values builds to a stub,
      which the record branch cannot rebuild. */
  lemma StubValueNotRebuildable(n: Node, name: string, es: seq<Entry>, i: int)
    requires FromProperty(n, name) == Success(es)
    requires 0 <= i < |Prop(n, name)| && Prop(n, name)[i].Str?
    ensures i < |es| && es[i] == FromStub(Prop(n, name)[i].s) && !Rebuildable(es[i])
  {
  }

  /** The smallest such tree: a reply whose only property is
      `in-reply-to`, naming its target by URL only. */
  function ReplyNode(link: string): (n: Node)
    ensures Prop(n, "in-reply-to") == [Str(link)] && n.children == []
    ensures Prop(n, "like-of") == [] && Prop(n, "repost-of") == [] && Prop(n, "comment") == []
  {
    Node([Property("in-reply-to", [Str(link)])], [])
  }

  /** The reply builds, and its `replyTo` is the stub of the URL. */
  lemma ReplyNodeBuilds(link: string)
    ensures TreeBuilds(ReplyNode(link))
    ensures FromProperty(ReplyNode(link), "in-reply-to") == Success([FromStub(link)])
  {
    var n := ReplyNode(link);
    assert ValuesBuild(n, "in-reply-to") && ValuesBuild(n, "like-of");
    assert ValuesBuild(n, "repost-of") && ValuesBuild(n, "comment");
    var r := FromProperty(n, "in-reply-to");
    assert FromValue(Prop(n, "in-reply-to")[0]) == Success(r.value[0]);
    assert r.value == [r.value[0]];
  }

  /** A record with an `author` list whose `replyTo` is one stub throws on
      the stub's missing `author`. */
  lemma StubReplyFails(e: Entry, link: string)
    requires e.author.Authors? && e.replyTo == Refs([FromStub(link)])
    ensures FromRecord(e) == Failure(TypeError("author"))
  {
    assert FromRecord(FromStub(link)) == Failure(TypeError("author"));
    assert FromRecordList([FromStub(link)]) == Failure(TypeError("author"));
  }

  lemma ReplyByUrlDoesNotRoundTrip()
    ensures
      var n := ReplyNode("https://example.com/a");
      && FromTree(n).Success?
      && FromTree(n).value.replyTo == Refs([FromStub("https://example.com/a")])
      && FromRecord(FromTree(n).value) == Failure(TypeError("author"))
  {
    var link := "https://example.com/a";
    var n := ReplyNode(link);
    ReplyNodeBuilds(link);
    var e := FromTree(n).value;
    TreeParts(n, e);
    StubReplyFails(e, link);
  }

  /** Which references of a tree-built entry `isReplyTo` can match: its `url`
      is a string only for a stub, so `isReplyTo(u)` holds exactly when `u`
      is one of the bare URL strings among the entry's `in-reply-to`,
      `repost-of` and `like-of` values. A reference given as a nested item
      never matches, whatever its url. */
  lemma TreeIsReplyTo(n: Node, link: string)
    requires FromTree(n).Success?
    ensures IsReplyTo(FromTree(n).value, link)
              == Success(Str(link) in Prop(n, "in-reply-to") + Prop(n, "repost-of") + Prop(n, "like-of"))
  {
    var e := FromTree(n).value;
    var rs, ps, ls := e.replyTo.entries, e.repostOf.entries, e.likeOf.entries;
    BuiltUrls(Prop(n, "in-reply-to"), rs, link);
    BuiltUrls(Prop(n, "repost-of"), ps, link);
    BuiltUrls(Prop(n, "like-of"), ls, link);
    UrlsAppend(rs, ps);
    UrlsAppend(rs + ps, ls);
    assert References(e) == Success(Urls(rs + ps + ls));
  }

  /** `es` is what the tree branch builds from the values `vs`, one by one. */
  ghost predicate Builds(vs: seq<Value>, es: seq<Entry>) {
    |vs| == |es| && forall i :: 0 <= i < |vs| ==> EntryBuilder.FromValue(vs[i]) == Success(es[i])
  }

  lemma UrlsAppend(es1: seq<Entry>, es2: seq<Entry>)
    ensures Urls(es1 + es2) == Urls(es1) + Urls(es2)
  {
  }

  /** Among built values, the url `Text(link)` appears exactly where the
      bare string `link` was. */
  lemma BuiltUrls(vs: seq<Value>, es: seq<Entry>, link: string)
    requires Builds(vs, es)
    ensures Text(link) in Urls(es) <==> Str(link) in vs
  {
    forall i | 0 <= i < |vs|
      ensures Urls(es)[i] == Text(link) <==> vs[i] == Str(link)
    {
      BuiltUrl(vs[i], es[i], link);
    }
    if Str(link) in vs {
      var i :| 0 <= i < |vs| && vs[i] == Str(link);
      assert Urls(es)[i] == Text(link);
    }
  }

  /** A built value has the url `Text(link)` exactly when the value was the
      bare string `link`: a nested item's url is its value list. */
  lemma BuiltUrl(v: Value, e: Entry, link: string)
    requires EntryBuilder.FromValue(v) == Success(e)
    ensures e.url == Text(link) <==> v == Str(link)
  {
  }

  /** On a tree-built entry `name` is always set (possibly to the empty list)
      and is never a string, so it never equals `content.value`: `isArticle`
      reduces to the absence of reply, repost, like and photo values. */
  lemma TreeIsArticle(n: Node)
    requires FromTree(n).Success?
    ensures IsArticle(FromTree(n).value) ==
      Success(&& |Prop(n, "in-reply-to")| == 0 && |Prop(n, "repost-of")| == 0
              && |Prop(n, "like-of")| == 0 && |Prop(n, "photo")| == 0)
  {
  }

  /** `isArticle` excludes reply, repost, like and photo, and when one of
      them holds `isArticle` is false rather than a throw. */
  lemma ArticleExcludesKinds(e: Entry)
    ensures IsArticle(e) == Success(true) ==>
      && IsReply(e) == Success(false) && IsRepost(e) == Success(false)
      && IsLike(e) == Success(false) && IsPhoto(e) == Success(false)
    ensures IsReply(e) == Success(true) ==> IsArticle(e) == Success(false)
    ensures IsReply(e) == Success(false) && IsRepost(e) == Success(true) ==> IsArticle(e) == Success(false)
  {
  }

  /** A stub leaves every list the predicates read unset: each predicate,
      and the record rebuild, throws on it. */
  lemma StubPredicatesThrow(link: string)
    ensures
      var e := FromStub(link);
      && References(e) == Failure(TypeError("replyTo"))
      && IsReply(e) == Failure(TypeError("replyTo"))
      && IsArticle(e) == Failure(TypeError("replyTo"))
      && IsPhoto(e) == Failure(TypeError("photo"))
      && IsReplyTo(e, link).Failure?
      && FromRecord(e) == Failure(TypeError("author"))
  {
  }

  /** A built draft leaves the same lists unset as a stub does. */
  lemma DraftPredicatesThrow(d: Draft, utils: TextUtils, now: string)
    requires d.url.Some?
    ensures
      var e := FromDraft(d, utils, now).value;
      && References(e) == Failure(TypeError("replyTo"))
      && IsArticle(e) == Failure(TypeError("replyTo"))
      && IsRepost(e) == Failure(TypeError("repostOf"))
      && IsLike(e) == Failure(TypeError("likeOf"))
      && IsPhoto(e) == Failure(TypeError("photo"))
      && FromRecord(e) == Failure(TypeError("author"))
  {
  }

  /** After `getHEntryWithCard` puts the representative card in `author`,
      the entry's record can no longer be rebuilt: the record branch calls
      `map` on `author`, which is now a single card. */
  lemma RepAuthorBlocksRebuild(e: Entry, card: Card)
    requires RepCardResolver.HasAuthor(e.author)
    ensures FromRecord(RepCardResolver.WithRepCard(e, Some(card))) == Failure(TypeError("author"))
  {
  }
}

=== FILE: mf_tree.dfy ===
/** The microformats-2 parse tree the external HTML parser hands to the
    builders, and the two lookup helpers of microformat.ts (`prop` and
    `children`). The parser itself is not part of this model. */
module MfTree {

  /** One element of a property's value list: a plain string (`p-`/`u-`
      properties), an `e-` property's `{value, html}` object, or an embedded
      microformat item (a nested node). */
  datatype Value =
    | Str(s: string)
    | Embedded(value: string, html: string)
    | Item(node: Node)

  /** A named property. A node's property object has unique keys; the model
      keeps them as a sequence and reads the first property of a name. */
  datatype Property = Property(name: string, values: seq<Value>)

  /** A parsed microformat item. An absent `children` list is the empty one:
      the `children` helper reads both the same way. */
  datatype Node = Node(properties: seq<Property>, children: seq<Node>)

  /** The parser's result for a whole page: its top-level items and its
      `rels` object (relation name to the list of link targets). */
  datatype Document = Document(items: seq<Node>, rels: map<string, seq<string>>)

  /** True iff the node carries a property of that name. */
  predicate HasProperty(n: Node, name: string) {
    exists i :: 0 <= i < |n.properties| && n.properties[i].name == name
  }

  function Lookup(ps: seq<Property>, name: string): (r: seq<Value>)
    ensures r == [] || exists i :: 0 <= i < |ps| && r == ps[i].values
    ensures (forall i :: 0 <= i < |ps| ==> ps[i].name != name) ==> r == []
    ensures forall i :: 0 <= i < |ps| && ps[i].name == name
                        && (forall j :: 0 <= j < i ==> ps[j].name != name)
                        ==> r == ps[i].values
  {
    if |ps| == 0 then []
    else if ps[0].name == name then ps[0].values
    else
      var r := Lookup(ps[1..], name);
      assert forall i :: 1 <= i < |ps| ==> ps[1..][i - 1] == ps[i];
      r
  }

  /** `prop(mf, name)`: the property's value list, or the empty list when the
      node has no such property. */
  function Prop(n: Node, name: string): (r: seq<Value>)
    ensures !HasProperty(n, name) ==> r == []
    ensures forall i :: 0 <= i < |n.properties| && n.properties[i].name == name
                        && (forall j :: 0 <= j < i ==> n.properties[j].name != name)
                        ==> r == n.properties[i].values
  {
    Lookup(n.properties, name)
  }

  /** Every value a property lookup returns lies strictly inside the node,
      which is what lets the builders recurse into property values. */
  lemma PropIsSmaller(n: Node, name: string)
    ensures forall v :: v in Prop(n, name) ==> v < n
  {
    var r := Prop(n, name);
    if r != [] {
      var i :| 0 <= i < |n.properties| && r == n.properties[i].values;
      assert n.properties[i] in n.properties;
    }
  }
}

=== FILE: page_entry.dfy ===
/** `getHEntry` and `getHEntryWithCard` (microformat.ts:9-28) on pages the
    external parser has already read: one parse filtered to h-entry items,
    one filtered to h-card items. */
module PageEntry {
  import opened Wrappers
  import opened MfTree
  import opened PostModel
  import opened EntryBuilder
  import opened RepCardResolver

  /** `getHEntry`: `new Entry(mf.items[0])`. On a page without items the
      constructor gets `undefined` and throws reading its `h`. */
  function GetHEntry(entries: Document): (r: Result<Entry, Error>)
    ensures |entries.items| == 0 ==> r == Failure(TypeError("h"))
    ensures |entries.items| > 0 ==> (r.Success? <==> TreeBuilds(entries.items[0]))
    ensures r.Success? ==> r.value.url == Values(Prop(entries.items[0], "url"))
    ensures r.Success? ==> r.value.author == Authors(CardBuilder.FromValues(Prop(entries.items[0], "author")))
  {
    if |entries.items| == 0 then Failure(TypeError("h")) else FromTree(entries.items[0])
  }

  /** `getHEntryWithCard`: the entry of the first page, whose `author` is
      replaced by the representative card of the second when there is one.
      A tree-built entry always has an `author` list, possibly empty, so
      `entry.author != null` never stops the replacement. */
  function GetHEntryWithCard(entries: Document, cards: Document, page: string, parse: UrlParser): (r: Result<Entry, Error>)
    ensures r.Success? <==> GetHEntry(entries).Success?
    ensures r.Success? ==> r.value.(author := GetHEntry(entries).value.author) == GetHEntry(entries).value
    ensures r.Success? && RepHCard(cards, page, parse).Some? ==>
              r.value.author == RepAuthor(RepHCard(cards, page, parse).value)
    ensures RepHCard(cards, page, parse).None? ==> r == GetHEntry(entries)
  {
    var entry :- GetHEntry(entries);
    if HasAuthor(entry.author) then Success(WithRepCard(entry, RepHCard(cards, page, parse)))
    else Success(entry)
  }

  /** Every entry the tree branch builds takes the representative card as
      its `author`, even one whose `author` property was absent. */
  lemma TreeEntryTakesRepCard(n: Node, card: Card)
    requires TreeBuilds(n)
    ensures WithRepCard(FromTree(n).value, Some(card)).author == RepAuthor(card)
  {
  }
}

=== FILE: post_model.dfy ===
/** The canonical post model of microformat.ts: the `Entry` and `Card`
    classes (microformat.ts:85-96, 219-223), the four shapes an `Entry` is
    built from, and the foreign helpers the builders call. */
module PostModel {
  import opened Wrappers
  import opened MfTree

  /** A field the constructors copy without converting it. The TypeScript
      declarations say `string`, but what is stored depends on the source
      shape: nothing (`undefined`) for fields a stub or a draft never sets, a
      string for stub and draft origin, the draft's `{value, html}` content
      object, or the parser's whole value list for tree origin. */
  datatype Field =
    | Unset
    | Text(s: string)
    | Rich(value: string, html: string)
    | Values(vs: seq<Value>)

  /** JavaScript's `x != null` on a field. */
  predicate IsSet(f: Field) {
    !f.Unset?
  }

  /** `content.value` of a set content field: only the draft's content object
      has one; reading it off a string or a list gives `undefined`. */
  function ContentValue(f: Field): (r: Option<string>)
    ensures r.Some? <==> f.Rich?
  {
    if f.Rich? then Some(f.value) else None
  }

  /** `content.html` of a set content field, `undefined` except on the
      draft's content object. */
  function ContentHtml(f: Field): (r: Option<string>)
    ensures r.Some? <==> f.Rich?
  {
    if f.Rich? then Some(f.html) else None
  }

  /** An h-card: name, photo, url and uid, each copied as a `Field`. */
  datatype Card = Card(name: Field, photo: Field, url: Field, uid: Field)

  /** The `author` field: unset on stubs and drafts, a list of cards after a
      build, or the single representative card `getHEntryWithCard` assigns. */
  datatype Authors =
    | NoAuthor
    | Authors(cards: seq<Card>)
    | RepAuthor(card: Card)

  /** The `replyTo`, `likeOf` and `repostOf` fields: unset on stubs and
      drafts, otherwise a list of nested entries. (A dedicated type rather
      than `Option<seq<Entry>>` keeps the nested entries structurally
      smaller than their parent.) */
  datatype Refs = NoRefs | Refs(entries: seq<Entry>)

  /** An h-entry. */
  datatype Entry = Entry(
    name: Field,
    published: Field,
    content: Field,
    photo: Field,
    url: Field,
    author: Authors,
    syndication: seq<Value>,
    replyTo: Refs,
    likeOf: Refs,
    repostOf: Refs,
    children: seq<Entry>)

  /** A micropub object (`h === 'entry'`); every field may be missing. */
  datatype Draft = Draft(
    url: Option<string>,
    published: Option<string>,
    content: Option<string>,
    name: Option<string>)

  /** The four shapes the `Entry` constructor distinguishes, in the order it
      tests them: a bare URL string, a micropub draft, a parser node (it has
      `properties`), and a deserialized record of an earlier `Entry`. */
  datatype Source =
    | Stub(link: string)
    | Micropub(draft: Draft)
    | Parsed(node: Node)
    | Record(record: Entry)

  /** The two shapes the `Card` constructor distinguishes. */
  datatype CardSource =
    | CardNode(node: Node)
    | CardRecord(record: Card)

  /** What a build or a predicate can throw: the draft validation error, or
      a TypeError from calling `map`/`length`/`concat` on a field that is
      not an array (named by the field). */
  datatype Error = UrlRequired | TypeError(field: string)

  /** `util.escapeHtml`, `util.autoLink` and `util.getLinks`, which are not
      part of this model: every operation that uses them takes them as
      parameters, so the properties hold whatever they compute. */
  datatype TextUtils = TextUtils(
    escapeHtml: string -> string,
    autoLink: string -> string,
    getLinks: Option<string> -> seq<string>)

  /** A card that has no set field: what `new Card(x)` produces when `x` has
      no `properties` and no card fields, such as a bare URL string. */
  const BlankCard := Card(Unset, Unset, Unset, Unset)

  /** An `Entry` the deserialized-record branch can rebuild: every list it
      calls `map` on is present, here and in every nested entry. */
  ghost predicate Rebuildable(e: Entry)
    decreases e
  {
    && e.author.Authors?
    && e.replyTo.Refs? && e.likeOf.Refs? && e.repostOf.Refs?
    && (forall i :: 0 <= i < |e.replyTo.entries| ==> Rebuildable(e.replyTo.entries[i]))
    && (forall i :: 0 <= i < |e.likeOf.entries| ==> Rebuildable(e.likeOf.entries[i]))
    && (forall i :: 0 <= i < |e.repostOf.entries| ==> Rebuildable(e.repostOf.entries[i]))
    && (forall i :: 0 <= i < |e.children| ==> Rebuildable(e.children[i]))
  }
}

=== FILE: reference_index.dfy ===
/** The derived classification methods of `Entry` (microformat.ts:173-216).
    Each one reads fields a stub or a draft leaves unset, so each returns a
    `Result`: `Failure(TypeError(field))` where the source would throw. */
module ReferenceIndex {
  import opened Wrappers
  import opened PostModel

  /** The `url` of each entry, in order. */
  function Urls(es: seq<Entry>): (us: seq<Field>)
    ensures |us| == |es|
    ensures forall i :: 0 <= i < |es| ==> us[i] == es[i].url
  {
    seq(|es|, i requires 0 <= i < |es| => es[i].url)
  }

  /** `references()`: the urls of `replyTo`, then `repostOf`, then `likeOf`.
      It throws when any of the three is unset (on `concat` of an unset
      `replyTo`, or on reading `url` of the `undefined` element `concat`
      appends for an unset `repostOf`/`likeOf`). */
  function References(e: Entry): (r: Result<seq<Field>, Error>)
    ensures r.Success? <==> e.replyTo.Refs? && e.repostOf.Refs? && e.likeOf.Refs?
    ensures e.replyTo.NoRefs? ==> r == Failure(TypeError("replyTo"))
    ensures r.Success? ==>
      var rs, ps, ls := e.replyTo.entries, e.repostOf.entries, e.likeOf.entries;
      && |r.value| == |rs| + |ps| + |ls|
      && (forall i :: 0 <= i < |rs| ==> r.value[i] == rs[i].url)
      && (forall i :: |rs| <= i < |rs| + |ps| ==> r.value[i] == ps[i - |rs|].url)
      && (forall i :: |rs| + |ps| <= i < |r.value| ==> r.value[i] == ls[i - |rs| - |ps|].url)
  {
    if e.replyTo.NoRefs? then Failure(TypeError("replyTo"))
    else if e.repostOf.NoRefs? then Failure(TypeError("repostOf"))
    else if e.likeOf.NoRefs? then Failure(TypeError("likeOf"))
    else Success(Urls(e.replyTo.entries + e.repostOf.entries + e.likeOf.entries))
  }

  /** `allLinks()`: the references, then, when `content` is set, every link
      `util.getLinks` finds in `content.html`. */
  function AllLinks(e: Entry, utils: TextUtils): (r: Result<seq<Field>, Error>)
    ensures r.Success? <==> References(e).Success?
    ensures r.Success? ==>
      var refs := References(e).value;
      && |refs| <= |r.value|
      && r.value[..|refs|] == refs
      && (!IsSet(e.content) ==> r.value == refs)
      && (IsSet(e.content) ==>
            var links := utils.getLinks(ContentHtml(e.content));
            |r.value| == |refs| + |links|
            && forall i :: 0 <= i < |links| ==> r.value[|refs| + i] == Text(links[i]))
  {
    var refs :- References(e);
    if IsSet(e.content) then
      var links := utils.getLinks(ContentHtml(e.content));
      Success(refs + seq(|links|, i requires 0 <= i < |links| => Text(links[i])))
    else Success(refs)
  }

  /** `length > 0` on a reference list; throws when the list is unset. */
  function NonEmpty(refs: Refs, field: string): (r: Result<bool, Error>)
    ensures r.Failure? <==> refs.NoRefs?
    ensures r.Failure? ==> r.error == TypeError(field)
    ensures r.Success? ==> (r.value <==> |refs.entries| > 0)
  {
    match refs
    case NoRefs => Failure(TypeError(field))
    case Refs(es) => Success(|es| > 0)
  }

  function IsReply(e: Entry): (r: Result<bool, Error>)
    ensures r.Success? <==> e.replyTo.Refs?
    ensures r.Success? ==> (r.value <==> |e.replyTo.entries| > 0)
  {
    NonEmpty(e.replyTo, "replyTo")
  }

  function IsRepost(e: Entry): (r: Result<bool, Error>)
    ensures r.Success? <==> e.repostOf.Refs?
    ensures r.Success? ==> (r.value <==> |e.repostOf.entries| > 0)
  {
    NonEmpty(e.repostOf, "repostOf")
  }

  function IsLike(e: Entry): (r: Result<bool, Error>)
    ensures r.Success? <==> e.likeOf.Refs?
    ensures r.Success? ==> (r.value <==> |e.likeOf.entries| > 0)
  {
    NonEmpty(e.likeOf, "likeOf")
  }

  /** `photo.length > 0`: the list's length for a parsed photo list, the
      string's length for a string, and `undefined > 0`, which is false, for
      an object without `length`. Throws when `photo` is unset. */
  function IsPhoto(e: Entry): (r: Result<bool, Error>)
    ensures r.Failure? <==> !IsSet(e.photo)
    ensures e.photo.Values? ==> r == Success(|e.photo.vs| > 0)
    ensures e.photo.Text? ==> r == Success(|e.photo.s| > 0)
    ensures e.photo.Rich? ==> r == Success(false)
  {
    match e.photo
    case Unset => Failure(TypeError("photo"))
    case Text(s) => Success(|s| > 0)
    case Rich(_, _) => Success(false)
    case Values(vs) => Success(|vs| > 0)
  }

  /** `isReplyTo(url)`: `indexOf` compares with `===`, so only a reference
      whose `url` is that very string matches; a parsed reference, whose
      `url` is a list, never does. */
  function IsReplyTo(e: Entry, link: string): (r: Result<bool, Error>)
    ensures r.Success? <==> References(e).Success?
    ensures r.Success? ==> (r.value <==> Text(link) in References(e).value)
  {
    var refs :- References(e);
    Success(Text(link) in refs)
  }

  /** `this.name !== this.content.value` is false exactly when `name` is a
      string equal to the content's value; a list or an object is never
      strictly equal to a string or to `undefined`. */
  predicate SameText(name: Field, value: Option<string>) {
    name.Text? && value == Some(name.s)
  }

  /** `isArticle()`: none of reply, repost, like or photo, and a set `name`
      that differs from a set `content`'s value. The `&&` chain stops at the
      first false operand, so a later predicate's throw is only reached when
      every earlier one returned false. */
  function IsArticle(e: Entry): (r: Result<bool, Error>)
    ensures r == Success(true) <==>
      && IsReply(e) == Success(false) && IsRepost(e) == Success(false)
      && IsLike(e) == Success(false) && IsPhoto(e) == Success(false)
      && IsSet(e.name) && IsSet(e.content)
      && !SameText(e.name, ContentValue(e.content))
    ensures r.Failure? <==>
      || IsReply(e).Failure?
      || (IsReply(e) == Success(false) && IsRepost(e).Failure?)
      || (IsReply(e) == Success(false) && IsRepost(e) == Success(false) && IsLike(e).Failure?)
      || (IsReply(e) == Success(false) && IsRepost(e) == Success(false)
          && IsLike(e) == Success(false) && IsPhoto(e).Failure?)
  {
    var reply :- IsReply(e);
    if reply then Success(false) else
    var repost :- IsRepost(e);
    if repost then Success(false) else
    var like :- IsLike(e);
    if like then Success(false) else
    var photo :- IsPhoto(e);
    if photo then Success(false) else
    Success(IsSet(e.name) && IsSet(e.content) && !SameText(e.name, ContentValue(e.content)))
  }
}

=== FILE: rep_card.dfy ===
/** Representative h-card discovery (`getRepHCard`, microformat.ts:30-63)
    and the author substitution of `getHEntryWithCard` (microformat.ts:9-21),
    with the HTML parsing and the promise plumbing stripped off. */
module RepCardResolver {
  import opened Wrappers
  import opened MfTree
  import opened PostModel
  import CardBuilder

  /** What `url.parse` yields that `urlsEqual` compares. */
  datatype UrlParts = UrlParts(protocol: Option<string>, host: Option<string>, path: Option<string>)

  /** `url.parse` is not part of this model: it is a parameter, applied to
      whatever value `urlsEqual` receives, including a card's list-valued
      `url`/`uid`. */
  type UrlParser = Field -> UrlParts

  /** `urlsEqual(u1, u2)` (microformat.ts:65-71): the parsed protocol, host
      and path agree. */
  predicate UrlsEqual(parse: UrlParser, u1: Field, u2: Field) {
    parse(u1) == parse(u2)
  }

  /** Rule 1's test (microformat.ts:37-42). `!= null` only rejects an unset
      field; an empty list passes it. */
  predicate UidAndUrlArePage(parse: UrlParser, page: string, c: Card) {
    IsSet(c.url) && IsSet(c.uid)
    && UrlsEqual(parse, c.url, Text(page)) && UrlsEqual(parse, c.uid, Text(page))
  }

  /** Rule 2's test (microformat.ts:46-51): the card's url equals one of the
      page's `rel=me` targets. */
  predicate UrlIsRelMe(parse: UrlParser, me: seq<string>, c: Card) {
    exists k :: 0 <= k < |me| && IsSet(c.url) && UrlsEqual(parse, c.url, Text(me[k]))
  }

  /** Rule 3's test on the page's only card (microformat.ts:55-59). */
  predicate UrlIsPage(parse: UrlParser, page: string, c: Card) {
    IsSet(c.url) && UrlsEqual(parse, c.url, Text(page))
  }

  /** `i` is the position of the first card that `keep` accepts. */
  ghost predicate IsFirst(cards: seq<Card>, keep: Card -> bool, i: int) {
    0 <= i < |cards| && keep(cards[i]) && forall j :: 0 <= j < i ==> !keep(cards[j])
  }

  /** `cards.filter(keep)`: the accepted cards, in their original order. */
  function Filter(cards: seq<Card>, keep: Card -> bool): (r: seq<Card>)
    ensures |r| <= |cards|
    ensures forall c :: c in r ==> c in cards && keep(c)
    ensures forall c :: c in cards && keep(c) ==> c in r
    ensures |r| > 0 ==> exists i :: IsFirst(cards, keep, i) && r[0] == cards[i]
  {
    if |cards| == 0 then []
    else
      var rest := Filter(cards[1..], keep);
      if keep(cards[0]) then [cards[0]] + rest
      else
        assert |rest| > 0 ==> exists i :: IsFirst(cards, keep, i) && rest[0] == cards[i] by {
          if |rest| > 0 {
            var i :| IsFirst(cards[1..], keep, i) && rest[0] == cards[1..][i];
            assert IsFirst(cards, keep, i + 1);
          }
        }
        rest
  }

  /** The three ordered rules; the first rule whose filter is non-empty
      returns its first card. `me` is `mf.rels.me`, `None` when the page
      declares no `rel=me` link. */
  function RepCard(cards: seq<Card>, me: Option<seq<string>>, page: string, parse: UrlParser): (r: Option<Card>)
    ensures r.Some? ==> r.value in cards
    ensures (exists i :: 0 <= i < |cards| && UidAndUrlArePage(parse, page, cards[i])) ==>
              exists i :: IsFirst(cards, c => UidAndUrlArePage(parse, page, c), i) && r == Some(cards[i])
    ensures && (forall i :: 0 <= i < |cards| ==> !UidAndUrlArePage(parse, page, cards[i]))
            && me.Some?
            && (exists i :: 0 <= i < |cards| && UrlIsRelMe(parse, me.value, cards[i])) ==>
              exists i :: IsFirst(cards, c => UrlIsRelMe(parse, me.value, c), i) && r == Some(cards[i])
    ensures && (forall i :: 0 <= i < |cards| ==> !UidAndUrlArePage(parse, page, cards[i]))
            && (me.None? || forall i :: 0 <= i < |cards| ==> !UrlIsRelMe(parse, me.value, cards[i])) ==>
              r == (if |cards| == 1 && UrlIsPage(parse, page, cards[0]) then Some(cards[0]) else None)
  {
    var byUid := Filter(cards, c => UidAndUrlArePage(parse, page, c));
    if |byUid| > 0 then Some(byUid[0])
    else
      assert forall i :: 0 <= i < |cards| ==> !UidAndUrlArePage(parse, page, cards[i]) by {
        forall i | 0 <= i < |cards| ensures !UidAndUrlArePage(parse, page, cards[i]) {
          assert cards[i] in cards;
        }
      }
      var byRelMe := if me.Some? then Filter(cards, c => UrlIsRelMe(parse, me.value, c)) else [];
      if |byRelMe| > 0 then Some(byRelMe[0])
      else
        assert me.Some? ==> forall i :: 0 <= i < |cards| ==> !UrlIsRelMe(parse, me.value, cards[i]) by {
          forall i | 0 <= i < |cards| && me.Some? ensures !UrlIsRelMe(parse, me.value, cards[i]) {
            assert cards[i] in cards;
          }
        }
        if |cards| == 1 && UrlIsPage(parse, page, cards[0]) then Some(cards[0])
        else None
  }

  /** `mf.items.map(h => new Card(h))`: one card per top-level item, read
      from the item's properties. */
  function ItemCards(doc: Document): (cs: seq<Card>)
    ensures |cs| == |doc.items|
    ensures forall i :: 0 <= i < |doc.items| ==> cs[i] == CardBuilder.FromNode(doc.items[i])
  {
    seq(|doc.items|, i requires 0 <= i < |doc.items| => CardBuilder.Build(CardNode(doc.items[i])))
  }

  /** `getRepHCard` on an already parsed page: the three rules run over the
      cards of the page's top-level items, in order, and rule 2 uses
      `mf.rels.me`, which is skipped when the page has no `rel=me` link. */
  function RepHCard(doc: Document, page: string, parse: UrlParser): (r: Option<Card>)
    ensures r.Some? ==> exists i :: 0 <= i < |doc.items| && r.value == CardBuilder.FromNode(doc.items[i])
    ensures |doc.items| == 0 ==> r.None?
    ensures var cs := ItemCards(doc);
      (exists i :: 0 <= i < |cs| && UidAndUrlArePage(parse, page, cs[i])) ==>
        exists i :: IsFirst(cs, c => UidAndUrlArePage(parse, page, c), i) && r == Some(cs[i])
    ensures var cs := ItemCards(doc);
      && (forall i :: 0 <= i < |cs| ==> !UidAndUrlArePage(parse, page, cs[i]))
      && "me" in doc.rels
      && (exists i :: 0 <= i < |cs| && UrlIsRelMe(parse, doc.rels["me"], cs[i])) ==>
        exists i :: IsFirst(cs, c => UrlIsRelMe(parse, doc.rels["me"], c), i) && r == Some(cs[i])
    ensures var cs := ItemCards(doc);
      && (forall i :: 0 <= i < |cs| ==> !UidAndUrlArePage(parse, page, cs[i]))
      && ("me" !in doc.rels || forall i :: 0 <= i < |cs| ==> !UrlIsRelMe(parse, doc.rels["me"], cs[i])) ==>
        r == (if |cs| == 1 && UrlIsPage(parse, page, cs[0]) then Some(cs[0]) else None)
  {
    var me := if "me" in doc.rels then Some(doc.rels["me"]) else None;
    RepCard(ItemCards(doc), me, page, parse)
  }

  /** The merge in `getHEntryWithCard`: an entry whose `author` is set gets
      the representative card, when there is one, as its single `author`;
      nothing else about the entry changes. */
  function WithRepCard(e: Entry, card: Option<Card>): (r: Entry)
    ensures r.(author := e.author) == e
    ensures r.author != e.author <==> HasAuthor(e.author) && card.Some? && e.author != RepAuthor(card.value)
    ensures HasAuthor(e.author) && card.Some? ==> r.author == RepAuthor(card.value)
  {
    if HasAuthor(e.author) && card.Some? then e.(author := RepAuthor(card.value)) else e
  }

  /** `entry.author != null`. */
  predicate HasAuthor(a: Authors) {
    !a.NoAuthor?
  }

  /** Rule 1 picks the card whose `uid` and `url` are the page, even when
      another card comes first. */
  lemma UidMatchWins(parse: UrlParser, page: string, other: Card, me: Option<seq<string>>)
    requires !UidAndUrlArePage(parse, page, other)
    ensures
      var self := Card(Text("Me"), Unset, Text(page), Text(page));
      RepCard([other, self], me, page, parse) == Some(self)
  {
    var self := Card(Text("Me"), Unset, Text(page), Text(page));
    assert UidAndUrlArePage(parse, page, [other, self][1]);
  }

  /** A parsed h-card whose `u-url` and `u-uid` are both `page`. */
  function OwnerCardNode(page: string): (n: Node)
    ensures Prop(n, "url") == [Str(page)] && Prop(n, "uid") == [Str(page)]
  {
    var n := Node([Property("url", [Str(page)]), Property("uid", [Str(page)])], []);
    assert n.properties[0].name != "uid" by { assert "url"[1] != "uid"[1]; }
    assert n.properties[1..] == [Property("uid", [Str(page)])];
    assert Lookup(n.properties[1..], "uid") == [Str(page)];
    assert Lookup(n.properties, "uid") == Lookup(n.properties[1..], "uid");
    n
  }

  /** The owner's card passes rule 1, given a parser that reads a
      one-element list as its only string. */
  lemma OwnerCardMatches(parse: UrlParser, page: string)
    requires parse(Values([Str(page)])) == parse(Text(page))
    ensures UidAndUrlArePage(parse, page, CardBuilder.FromNode(OwnerCardNode(page)))
  {
  }

  /** The same on a parsed page: after an item whose card fails rule 1
      comes the owner's h-card. Rule 1 picks the owner's card whatever the
      page's `rel` links. */
  lemma OwnCardWins(parse: UrlParser, page: string, other: Node, rels: map<string, seq<string>>)
    requires parse(Values([Str(page)])) == parse(Text(page))
    requires !UidAndUrlArePage(parse, page, CardBuilder.FromNode(other))
    ensures
      var own := OwnerCardNode(page);
      RepHCard(Document([other, own], rels), page, parse) == Some(CardBuilder.FromNode(own))
  {
    var doc := Document([other, OwnerCardNode(page)], rels);
    var cs := ItemCards(doc);
    OwnerCardMatches(parse, page);
    assert cs[0] == CardBuilder.FromNode(other) && cs[1] == CardBuilder.FromNode(OwnerCardNode(page));
    assert IsFirst(cs, c => UidAndUrlArePage(parse, page, c), 1);
    RuleOnePicks(doc, page, parse, 1);
  }

  /** On a parsed page, rule 1 returns the card of the first item that
      passes it. */
  lemma RuleOnePicks(doc: Document, page: string, parse: UrlParser, i: int)
    requires IsFirst(ItemCards(doc), c => UidAndUrlArePage(parse, page, c), i)
    ensures RepHCard(doc, page, parse) == Some(CardBuilder.FromNode(doc.items[i]))
  {
    var cs := ItemCards(doc);
    var keep := c => UidAndUrlArePage(parse, page, c);
    var j :| IsFirst(cs, keep, j) && RepHCard(doc, page, parse) == Some(cs[j]);
    FirstIsUnique(cs, keep, i, j);
  }

  /** At most one position is the first accepted one. */
  lemma FirstIsUnique(cards: seq<Card>, keep: Card -> bool, i: int, j: int)
    requires IsFirst(cards, keep, i) && IsFirst(cards, keep, j)
    ensures i == j
  {
  }

  /** Rule 2: a card without a `uid` whose `url` is the page's `rel=me`
      target. */
  lemma RelMeMatch(parse: UrlParser, page: string, target: string)
    ensures
      var card := Card(Unset, Unset, Text(target), Unset);
      RepCard([card], Some([target]), page, parse) == Some(card)
  {
    var card := Card(Unset, Unset, Text(target), Unset);
    assert UrlsEqual(parse, card.url, Text([target][0]));
    assert UrlIsRelMe(parse, [target], [card][0]);
  }

  /** Rule 3: the page's only card, without a `uid`, whose `url` is the
      page. */
  lemma SoleCardMatch(parse: UrlParser, page: string)
    ensures
      var card := Card(Unset, Unset, Text(page), Unset);
      RepCard([card], None, page, parse) == Some(card)
  {
  }

  /** Two cards, no `rel=me` and no `uid`+`url` match: no representative
      card, even if a card's `url` is the page. */
  lemma NoRuleMatches(parse: UrlParser, page: string, c1: Card, c2: Card)
    requires !UidAndUrlArePage(parse, page, c1) && !UidAndUrlArePage(parse, page, c2)
    ensures RepCard([c1, c2], None, page, parse) == None
  {
  }
}

=== FILE: rep_card_as_written.dfy ===
/** `getRepHCard` (microformat.ts:30-63) with `urlsEqual` as written: it
    hands the card's `url` and `uid` straight to `url.parse`, which throws a
    TypeError on anything but a string. A card read from a parser node holds
    value lists there, so the first comparison throws and the promise
    rejects. `RepCardResolver.RepHCard` is the intended behaviour, with the
    list-to-URL reading folded into its parser. */
module RepCardAsWritten {
  import opened Wrappers
  import opened MfTree
  import opened PostModel
  import CardBuilder
  import opened RepCardResolver
  import PageEntry

  /** Node's `url.parse` on strings, which is not part of this model. */
  type TextUrlParser = string -> UrlParts

  /** `urlsEqual(u1, u2)` as written: `url.parse` throws unless it is given
      a string, so the comparison only succeeds on two strings. */
  function UrlsEqualAsWritten(parse: TextUrlParser, u1: Field, u2: Field): (r: Result<bool, Error>)
    ensures r.Failure? <==> !u1.Text? || !u2.Text?
    ensures r.Success? ==> (r.value <==> parse(u1.s) == parse(u2.s))
  {
    if !u1.Text? || !u2.Text? then Failure(TypeError("url"))
    else Success(parse(u1.s) == parse(u2.s))
  }

  /** Rule 1's test (microformat.ts:38-41): `&&` stops at an unset field or
      at the first `false`, and otherwise reaches `url.parse`. */
  function UidTest(parse: TextUrlParser, page: string, c: Card): (r: Result<bool, Error>)
    ensures IsSet(c.url) && IsSet(c.uid) && !c.url.Text? ==> r.Failure?
    ensures r == Success(true) ==>
      c.url.Text? && c.uid.Text? && parse(c.url.s) == parse(page) && parse(c.uid.s) == parse(page)
  {
    if !IsSet(c.url) || !IsSet(c.uid) then Success(false)
    else
      var byUrl :- UrlsEqualAsWritten(parse, c.url, Text(page));
      if !byUrl then Success(false) else UrlsEqualAsWritten(parse, c.uid, Text(page))
  }

  /** Rule 2's test of one `rel=me` target (microformat.ts:48-49). */
  function RelMeTest(parse: TextUrlParser, c: Card, target: string): (r: Result<bool, Error>)
    ensures r.Failure? <==> IsSet(c.url) && !c.url.Text?
    ensures r == Success(true) ==> c.url.Text? && parse(c.url.s) == parse(target)
  {
    if !IsSet(c.url) then Success(false) else UrlsEqualAsWritten(parse, c.url, Text(target))
  }

  /** `xs.some(test)` with a test that may throw: it stops at the first
      `true`, so a throw only surfaces when every earlier test was `false`. */
  function SomeOrThrow(targets: seq<string>, test: string -> Result<bool, Error>): (r: Result<bool, Error>)
    ensures (forall k :: 0 <= k < |targets| ==> test(targets[k]).Success?) ==>
              r == Success(exists k :: 0 <= k < |targets| && test(targets[k]) == Success(true))
    ensures r.Failure? ==> exists k :: 0 <= k < |targets| && test(targets[k]).Failure?
  {
    if |targets| == 0 then Success(false)
    else
      var hit :- test(targets[0]);
      if hit then Success(true)
      else
        var rest := SomeOrThrow(targets[1..], test);
        assert forall k :: 1 <= k < |targets| ==> targets[1..][k - 1] == targets[k];
        rest
  }

  /** `cards.filter(test)` with a test that may throw: it throws when any
      card's test does, and otherwise keeps exactly the accepted cards. */
  function FilterOrThrow(cards: seq<Card>, test: Card -> Result<bool, Error>): (r: Result<seq<Card>, Error>)
    ensures r.Failure? <==> exists i :: 0 <= i < |cards| && test(cards[i]).Failure?
    ensures r.Success? ==> forall c :: c in r.value <==> c in cards && test(c) == Success(true)
  {
    if |cards| == 0 then Success([])
    else
      var keep :- test(cards[0]);
      var rest :- FilterOrThrow(cards[1..], test);
      assert forall i :: 1 <= i < |cards| ==> cards[1..][i - 1] == cards[i];
      Success(if keep then [cards[0]] + rest else rest)
  }

  /** The three rules as written. Any card whose rule 1 test reaches
      `url.parse` with a list rejects the whole call. */
  function RepCardThrowing(cards: seq<Card>, me: Option<seq<string>>, page: string,
                           parse: TextUrlParser): (r: Result<Option<Card>, Error>)
    ensures (exists i :: 0 <= i < |cards| && UidTest(parse, page, cards[i]).Failure?) ==> r.Failure?
    ensures r.Success? && r.value.Some? ==> r.value.value in cards
  {
    var byUid :- FilterOrThrow(cards, c => UidTest(parse, page, c));
    if |byUid| > 0 then Success(Some(byUid[0]))
    else
      var byRelMe :-
        if me.Some? then FilterOrThrow(cards, c => SomeOrThrow(me.value, t => RelMeTest(parse, c, t)))
        else Success([]);
      if |byRelMe| > 0 then Success(Some(byRelMe[0]))
      else if |cards| == 1 && IsSet(cards[0].url) then
        var same :- UrlsEqualAsWritten(parse, cards[0].url, Text(page));
        Success(if same then Some(cards[0]) else None)
      else Success(None)
  }

  /** `getRepHCard` as written, on an already parsed page: it rejects on
      every page that has an h-card, and finds none on a page without. */
  function RepHCardThrowing(doc: Document, page: string, parse: TextUrlParser): (r: Result<Option<Card>, Error>)
    ensures |doc.items| > 0 ==> r.Failure?
    ensures |doc.items| == 0 ==> r == Success(None)
  {
    var cards := ItemCards(doc);
    var me := if "me" in doc.rels then Some(doc.rels["me"]) else None;
    assert |doc.items| > 0 ==> UidTest(parse, page, cards[0]).Failure?;
    RepCardThrowing(cards, me, page, parse)
  }

  /** A page whose only item is its owner's h-card, with `u-url` and `u-uid`
      both the page. As written, `getRepHCard` rejects on it; the intended
      rules pick that card, given a parser that reads a one-element list as
      its only string. */
  lemma OwnCardRejected(text: TextUrlParser, parse: UrlParser, page: string)
    requires parse(Values([Str(page)])) == parse(Text(page))
    ensures
      var own := OwnerCardNode(page);
      var doc := Document([own], map[]);
      && RepHCardThrowing(doc, page, text).Failure?
      && RepHCard(doc, page, parse) == Some(CardBuilder.FromNode(own))
  {
    var doc := Document([OwnerCardNode(page)], map[]);
    OwnerCardMatches(parse, page);
    assert UidAndUrlArePage(parse, page, ItemCards(doc)[0]);
  }

  /** `getHEntryWithCard` (microformat.ts:9-21) as written: the entry is
      built first, and since a tree-built entry always has an `author` list,
      `getRepHCard` then runs and rejects on any page with an h-card. So the
      call only succeeds on a page without h-cards, unchanged. */
  function GetHEntryWithCardAsWritten(entries: Document, cards: Document, page: string,
                                      text: TextUrlParser): (r: Result<Entry, Error>)
    ensures PageEntry.GetHEntry(entries).Failure? ==> r == PageEntry.GetHEntry(entries)
    ensures PageEntry.GetHEntry(entries).Success? && |cards.items| > 0 ==> r.Failure?
    ensures |cards.items| == 0 ==> r == PageEntry.GetHEntry(entries)
  {
    var entry :- PageEntry.GetHEntry(entries);
    if HasAuthor(entry.author) then
      var card :- RepHCardThrowing(cards, page, text);
      Success(WithRepCard(entry, card))
    else Success(entry)
  }
}

=== FILE: s3_paths.dfy ===
/** `normalizePath` of s3publisher.ts:12-16: split on '/', drop the empty
    segments, join with '/'. S3 keys must not start with a slash. */
module S3Paths {

  /** JavaScript's `s.split('/')`: the text between slashes, including empty
      segments; `"".split('/')` is `[""]`. */
  function Split(s: string): (segs: seq<string>)
    ensures |segs| >= 1
    ensures forall k :: 0 <= k < |segs| ==> '/' !in segs[k]
  {
    if |s| == 0 then [""]
    else
      var rest := Split(s[1..]);
      if s[0] == '/' then [""] + rest
      else [[s[0]] + rest[0]] + rest[1..]
  }

  /** JavaScript's `segs.join('/')`. */
  function Join(segs: seq<string>): string {
    if |segs| == 0 then ""
    else if |segs| == 1 then segs[0]
    else segs[0] + "/" + Join(segs[1..])
  }

  /** `filter(elt => elt != '')`: the non-empty segments, in order. */
  function NonEmpty(segs: seq<string>): (r: seq<string>)
    ensures |r| <= |segs|
    ensures forall k :: 0 <= k < |r| ==> r[k] != "" && r[k] in segs
    ensures forall k :: 0 <= k < |segs| && segs[k] != "" ==> segs[k] in r
  {
    if |segs| == 0 then []
    else if segs[0] == "" then NonEmpty(segs[1..])
    else [segs[0]] + NonEmpty(segs[1..])
  }

  /** The filter keeps every non-empty segment as often as it occurs, and
      drops every empty one. */
  lemma {:induction false} NonEmptyCounts(segs: seq<string>)
    ensures multiset(NonEmpty(segs)) == multiset(segs)["" := 0]
  {
    if |segs| > 0 {
      NonEmptyCounts(segs[1..]);
      assert segs == [segs[0]] + segs[1..];
    }
  }

  /** Dropping empty segments keeps the order of the rest: filtering two
      lists one after the other is filtering their concatenation. */
  lemma {:induction false} NonEmptyAppend(a: seq<string>, b: seq<string>)
    ensures NonEmpty(a + b) == NonEmpty(a) + NonEmpty(b)
  {
    if |a| > 0 {
      assert (a + b)[1..] == a[1..] + b;
      NonEmptyAppend(a[1..], b);
    } else {
      assert a + b == b;
    }
  }

  /** A key with no empty segment: no leading, trailing or doubled slash. */
  predicate WellFormedKey(s: string) {
    |s| == 0 || (
      && s[0] != '/'
      && s[|s| - 1] != '/'
      && forall k :: 0 <= k < |s| - 1 ==> !(s[k] == '/' && s[k + 1] == '/'))
  }

  function NormalizePath(p: string): (r: string)
    ensures WellFormedKey(r)
    ensures NonEmpty(Split(r)) == NonEmpty(Split(p))
  {
    var segs := NonEmpty(Split(p));
    NonEmptySegmentsAreSlashFree(Split(p));
    JoinWellFormed(segs);
    SegmentsOfJoin(segs);
    NonEmptyIdempotent(Split(p));
    Join(segs)
  }

  /** Joining non-empty slash-free segments and splitting again gives them
      back, once empty segments are dropped (which only matters for `[]`,
      whose join `""` splits to `[""]`). */
  lemma SegmentsOfJoin(segs: seq<string>)
    requires forall k :: 0 <= k < |segs| ==> segs[k] != "" && '/' !in segs[k]
    ensures NonEmpty(Split(Join(segs))) == segs
  {
    if |segs| > 0 {
      SplitJoin(segs);
      NonEmptyKeepsNonEmpty(segs);
    }
  }

  lemma {:induction false} NonEmptyKeepsNonEmpty(segs: seq<string>)
    requires forall k :: 0 <= k < |segs| ==> segs[k] != ""
    ensures NonEmpty(segs) == segs
  {
    if |segs| > 0 {
      NonEmptyKeepsNonEmpty(segs[1..]);
    }
  }

  lemma {:induction false} NonEmptySegmentsAreSlashFree(segs: seq<string>)
    requires forall k :: 0 <= k < |segs| ==> '/' !in segs[k]
    ensures forall k :: 0 <= k < |NonEmpty(segs)| ==> '/' !in NonEmpty(segs)[k]
  {
  }

  lemma {:induction false} NonEmptyIdempotent(segs: seq<string>)
    ensures NonEmpty(NonEmpty(segs)) == NonEmpty(segs)
  {
    if |segs| > 0 {
      NonEmptyIdempotent(segs[1..]);
      if segs[0] != "" {
        assert ([segs[0]] + NonEmpty(segs[1..]))[1..] == NonEmpty(segs[1..]);
      }
    }
  }

  /** Splitting a slash-free word followed by more text: the word is glued
      to the front of the first segment of the rest. */
  lemma {:induction false} SplitPrefix(w: string, t: string)
    requires '/' !in w
    ensures Split(w + t) == [w + Split(t)[0]] + Split(t)[1..]
  {
    if |w| == 0 {
      assert w + t == t;
      assert w + Split(t)[0] == Split(t)[0];
      assert [w + Split(t)[0]] + Split(t)[1..] == Split(t);
    } else {
      SplitPrefix(w[1..], t);
      assert (w + t)[1..] == w[1..] + t;
      assert w[0] in w;
      assert (w + t)[0] == w[0];
      var rest := Split(w[1..] + t);
      assert rest[0] == w[1..] + Split(t)[0];
      assert rest[1..] == Split(t)[1..];
      assert [w[0]] + (w[1..] + Split(t)[0]) == w + Split(t)[0];
    }
  }

  /** `split` undoes `join` on slash-free segments. */
  lemma {:induction false} SplitJoin(segs: seq<string>)
    requires |segs| >= 1
    requires forall k :: 0 <= k < |segs| ==> '/' !in segs[k]
    ensures Split(Join(segs)) == segs
  {
    if |segs| == 1 {
      SplitPrefix(segs[0], "");
      assert segs[0] + "" == segs[0];
    } else {
      SplitJoin(segs[1..]);
      var t := "/" + Join(segs[1..]);
      assert segs[0] + "/" + Join(segs[1..]) == segs[0] + t;
      SplitPrefix(segs[0], t);
      assert t[1..] == Join(segs[1..]);
      assert Split(t) == [""] + segs[1..];
      assert segs[0] + "" == segs[0];
    }
  }

  /** `join` undoes `split`. */
  lemma {:induction false} JoinSplit(s: string)
    ensures Join(Split(s)) == s
  {
    if |s| > 0 {
      JoinSplit(s[1..]);
      var rest := Split(s[1..]);
      if s[0] == '/' {
        assert Join([""] + rest) == "" + "/" + Join(rest);
      } else {
        if |rest| == 1 {
          assert Join([[s[0]] + rest[0]] + rest[1..]) == [s[0]] + rest[0];
        } else {
          var segs := [[s[0]] + rest[0]] + rest[1..];
          assert segs[1..] == rest[1..];
          assert Join(rest) == rest[0] + "/" + Join(rest[1..]);
          assert Join(segs) == [s[0]] + rest[0] + "/" + Join(rest[1..]);
        }
        assert s == [s[0]] + s[1..];
      }
    }
  }

  /** Joining non-empty slash-free segments never produces an empty
      segment. */
  lemma {:induction false} JoinWellFormed(segs: seq<string>)
    requires forall k :: 0 <= k < |segs| ==> segs[k] != "" && '/' !in segs[k]
    ensures WellFormedKey(Join(segs))
    ensures |segs| > 0 ==> |Join(segs)| > 0
  {
    if |segs| > 1 {
      JoinWellFormed(segs[1..]);
      var a, b := segs[0], Join(segs[1..]);
      var s := a + "/" + b;
      assert s[0] == a[0];
      assert s[|s| - 1] == b[|b| - 1];
      forall k | 0 <= k < |s| - 1
        ensures !(s[k] == '/' && s[k + 1] == '/')
      {
        if k < |a| {
          assert s[k] == a[k];
          assert a[k] in a;
        } else if k > |a| {
          assert s[k] == b[k - |a| - 1] && s[k + 1] == b[k - |a|];
        } else {
          assert s[k + 1] == b[0];
        }
      }
    } else if |segs| == 1 {
      var s := segs[0];
      forall k | 0 <= k < |s|
        ensures s[k] != '/'
      {
        assert s[k] in s;
      }
    }
  }

  /** Normalising twice is normalising once. */
  lemma NormalizeIdempotent(p: string)
    ensures NormalizePath(NormalizePath(p)) == NormalizePath(p)
  {
    var r := NormalizePath(p);
    assert NonEmpty(Split(r)) == NonEmpty(Split(p));
  }

  /** `normalizePath` leaves a key unchanged exactly when the key has no
      empty segment. */
  lemma NormalizeFixesExactlyWellFormed(s: string)
    ensures NormalizePath(s) == s <==> WellFormedKey(s)
  {
    if WellFormedKey(s) && |s| > 0 {
      forall k | 0 <= k < |Split(s)|
        ensures Split(s)[k] != ""
      {
        if Split(s)[k] == "" {
          EmptySegment(s, k);
        }
      }
      NonEmptyKeepsNonEmpty(Split(s));
      JoinSplit(s);
    }
  }

  /** Where an empty segment of `split('/')` comes from: an empty string, a
      leading slash, a trailing slash or two adjacent slashes. */
  lemma {:induction false} EmptySegment(s: string, k: int)
    requires 0 <= k < |Split(s)| && Split(s)[k] == ""
    ensures || (k == 0 && (|s| == 0 || s[0] == '/'))
            || (k == |Split(s)| - 1 && (|s| == 0 || s[|s| - 1] == '/'))
            || (exists i :: 0 <= i < |s| - 1 && s[i] == '/' && s[i + 1] == '/')
  {
    if |s| > 0 {
      var rest := Split(s[1..]);
      if s[0] == '/' {
        if k > 0 {
          assert rest[k - 1] == "";
          EmptySegment(s[1..], k - 1);
          if k - 1 == 0 && |s[1..]| > 0 && s[1] == '/' {
            assert s[0] == '/' && s[1] == '/';
          } else if exists i :: 0 <= i < |s[1..]| - 1 && s[1..][i] == '/' && s[1..][i + 1] == '/' {
            var i :| 0 <= i < |s[1..]| - 1 && s[1..][i] == '/' && s[1..][i + 1] == '/';
            assert s[i + 1] == '/' && s[i + 2] == '/';
          } else {
            assert k == |Split(s)| - 1;
            assert |s[1..]| == 0 || s[|s| - 1] == '/';
          }
        }
      } else {
        assert k > 0;
        assert rest[k] == "";
        EmptySegment(s[1..], k);
        if exists i :: 0 <= i < |s[1..]| - 1 && s[1..][i] == '/' && s[1..][i + 1] == '/' {
          var i :| 0 <= i < |s[1..]| - 1 && s[1..][i] == '/' && s[1..][i + 1] == '/';
          assert s[i + 1] == '/' && s[i + 2] == '/';
        } else {
          assert k == |Split(s)| - 1;
        }
      }
    }
  }

  /** The length of the joined segments plus one: each segment with the
      slash that follows it. */
  ghost function Width(segs: seq<string>): int {
    if |segs| == 0 then 0 else |segs[0]| + 1 + Width(segs[1..])
  }

  lemma {:induction false} JoinLength(segs: seq<string>)
    requires |segs| > 0
    ensures |Join(segs)| + 1 == Width(segs)
  {
    if |segs| > 1 {
      JoinLength(segs[1..]);
    }
  }

  lemma {:induction false} NonEmptyWidth(segs: seq<string>)
    ensures Width(NonEmpty(segs)) <= Width(segs)
  {
    if |segs| > 0 {
      NonEmptyWidth(segs[1..]);
      if segs[0] != "" {
        assert ([segs[0]] + NonEmpty(segs[1..]))[1..] == NonEmpty(segs[1..]);
      }
    }
  }

  /** `normalizePath` only ever removes slashes: the key is never longer
      than the path. */
  lemma NormalizeNeverLonger(p: string)
    ensures |NormalizePath(p)| <= |p|
  {
    var segs := Split(p);
    JoinSplit(p);
    JoinLength(segs);
    NonEmptyWidth(segs);
    if |NonEmpty(segs)| > 0 {
      JoinLength(NonEmpty(segs));
    }
  }
}

=== FILE: s3_store.dfy ===
/** The key effects of `S3Publisher.put`/`delete`/`get`/`exists`
    (s3publisher.ts:36-79) on the bucket, modelled as a map from key to the
    stored object. The AWS calls, their concurrency guards and `list`'s
    paging are not part of this model. */
module S3Store {
  import opened Wrappers
  import opened S3Paths

  /** An S3 object: its body and its `Content-Type`. */
  datatype StoredObject = StoredObject(body: string, contentType: string)

  type Bucket = map<string, StoredObject>

  /** `/\.html$/.test(key)`. */
  predicate HasHtmlSuffix(key: string) {
    |key| >= 5 && key[|key| - 5..] == ".html"
  }

  /** S3 serves `key` and `key.html` separately, so an HTML object stored
      under a key without the suffix is stored under both. */
  predicate NeedsHtmlTwin(contentType: string, key: string) {
    contentType == "text/html" && !HasHtmlSuffix(key)
  }

  /** The `ContentType` parameter of `put`: the given type, or the one
      `util.inferMimetype` (not part of this model) derives from the path. */
  function PutContentType(path: string, contentType: Option<string>, inferMimetype: string -> string): (t: string)
    ensures contentType.Some? ==> t == contentType.value
    ensures contentType.None? ==> t == inferMimetype(path)
  {
    if contentType.Some? then contentType.value else inferMimetype(path)
  }

  /** `put(path, obj, contentType)` as the comment at s3publisher.ts:46-47
      states it: the object goes under the normalised key, and an HTML
      object under a key without `.html` also goes under `key + ".html"`.
      No other key changes. */
  function Put(b: Bucket, path: string, body: string, contentType: Option<string>,
               inferMimetype: string -> string): (r: Bucket)
    ensures
      var key := NormalizePath(path);
      var obj := StoredObject(body, PutContentType(path, contentType, inferMimetype));
      && key in r && r[key] == obj
      && (NeedsHtmlTwin(obj.contentType, key) ==> key + ".html" in r && r[key + ".html"] == obj)
      && r.Keys == b.Keys + {key} + (if NeedsHtmlTwin(obj.contentType, key) then {key + ".html"} else {})
      && (forall k :: k in b && k != key && !(NeedsHtmlTwin(obj.contentType, key) && k == key + ".html")
                      ==> r[k] == b[k])
  {
    var key := NormalizePath(path);
    var obj := StoredObject(body, PutContentType(path, contentType, inferMimetype));
    var once := b[key := obj];
    if NeedsHtmlTwin(obj.contentType, key) then once[key + ".html" := obj] else once
  }

  /** The outcome of a call that may reject after it has changed the bucket. */
  datatype Outcome = Outcome(bucket: Bucket, rejected: bool)

  /** `put` as written: its second write runs in a plain `function` callback
      where `this` is not the publisher, so `this.putObject` is not a
      function. The first write has happened, the `.html` twin is never
      written, and the returned promise rejects. */
  function PutAsWritten(b: Bucket, path: string, body: string, contentType: Option<string>,
                        inferMimetype: string -> string): (r: Outcome)
    ensures
      var key := NormalizePath(path);
      var obj := StoredObject(body, PutContentType(path, contentType, inferMimetype));
      && r.bucket == b[key := obj]
      && (r.rejected <==> NeedsHtmlTwin(obj.contentType, key))
  {
    var key := NormalizePath(path);
    var obj := StoredObject(body, PutContentType(path, contentType, inferMimetype));
    Outcome(b[key := obj], NeedsHtmlTwin(obj.contentType, key))
  }

  /** `delete(path, contentType)`: removes `path` itself, NOT normalised, and
      `path + ".html"` when the type is HTML and `path` lacks the suffix.
      Deleting a missing key is not an error. */
  function Delete(b: Bucket, path: string, contentType: Option<string>): (r: Bucket)
    ensures path !in r
    ensures contentType == Some("text/html") && !HasHtmlSuffix(path) ==> path + ".html" !in r
    ensures r.Keys == b.Keys - {path}
                      - (if contentType == Some("text/html") && !HasHtmlSuffix(path) then {path + ".html"} else {})
    ensures forall k :: k in r ==> r[k] == b[k]
  {
    var once := b - {path};
    if contentType == Some("text/html") && !HasHtmlSuffix(path) then once - {path + ".html"} else once
  }

  /** `get(path)`: the object under the normalised key; `None` is the
      rejection S3 gives for a missing key. */
  function Get(b: Bucket, path: string): (r: Option<StoredObject>)
    ensures r.Some? <==> NormalizePath(path) in b
    ensures r.Some? ==> r.value == b[NormalizePath(path)]
  {
    var key := NormalizePath(path);
    if key in b then Some(b[key]) else None
  }

  /** `exists(path)`: whether the normalised key is present. */
  function Exists(b: Bucket, path: string): (r: bool)
    ensures r <==> Get(b, path).Some?
  {
    NormalizePath(path) in b
  }

  /** After `put(p, ...)`, `exists(p)` holds and `get(p)` returns what was
      put: both look up the same normalised key. */
  lemma PutThenGet(b: Bucket, p: string, body: string, contentType: Option<string>,
                   inferMimetype: string -> string)
    ensures
      var r := Put(b, p, body, contentType, inferMimetype);
      && Exists(r, p)
      && Get(r, p) == Some(StoredObject(body, PutContentType(p, contentType, inferMimetype)))
  {
  }

  /** After an HTML `put` under a key without the suffix, the `.html` twin
      is readable through `get` too. */
  lemma PutThenGetTwin(b: Bucket, p: string, body: string, inferMimetype: string -> string)
    requires !HasHtmlSuffix(NormalizePath(p))
    ensures
      var key := NormalizePath(p);
      Get(Put(b, p, body, Some("text/html"), inferMimetype), key + ".html")
        == Some(StoredObject(body, "text/html"))
  {
    var key := NormalizePath(p);
    AppendKeepsWellFormed(key, ".html");
    NormalizeFixesExactlyWellFormed(key + ".html");
  }

  /** Appending slash-free text that does not end in '/' keeps a key
      well-formed. */
  lemma AppendKeepsWellFormed(key: string, suffix: string)
    requires WellFormedKey(key)
    requires |suffix| > 0 && '/' !in suffix
    ensures WellFormedKey(key + suffix)
  {
    var s := key + suffix;
    assert s[|s| - 1] == suffix[|suffix| - 1];
    assert suffix[|suffix| - 1] in suffix;
    if |key| == 0 {
      assert s == suffix;
      assert suffix[0] in suffix;
    }
    forall k | 0 <= k < |s| - 1
      ensures !(s[k] == '/' && s[k + 1] == '/')
    {
      if k + 1 >= |key| {
        assert s[k + 1] == suffix[k + 1 - |key|];
        assert suffix[k + 1 - |key|] in suffix;
      }
    }
  }

  /** `delete` does not normalise its path: after `put(p)`, `delete(p)`
      leaves the object in place whenever `p` differs from its normal form
      (a leading slash, say), and `exists(p)` still holds. */
  lemma DeleteMissesNormalizedKey(b: Bucket, p: string, body: string, contentType: Option<string>,
                                  inferMimetype: string -> string)
    requires NormalizePath(p) != p
    ensures Exists(Delete(Put(b, p, body, contentType, inferMimetype), p, contentType), p)
  {
    NormalizeNeverLonger(p);
  }

  /** On a well-formed key, `delete` undoes an HTML `put`: the key and its
      `.html` twin are both gone, and every other key is as it was before the
      `put` (test/mirrorpublisher.ts:104-106). */
  lemma DeleteUndoesHtmlPut(b: Bucket, p: string, body: string, inferMimetype: string -> string)
    requires WellFormedKey(p) && !HasHtmlSuffix(p)
    requires p !in b && p + ".html" !in b
    ensures
      var r := Delete(Put(b, p, body, Some("text/html"), inferMimetype), p, Some("text/html"));
      && r == b
      && !Exists(r, p)
  {
    NormalizeFixesExactlyWellFormed(p);
    var r := Delete(Put(b, p, body, Some("text/html"), inferMimetype), p, Some("text/html"));
    assert r.Keys == b.Keys;
  }

  /** The HTML half of the publisher test (test/mirrorpublisher.ts:31,
      71-80): `put('post', html, 'text/html')` on an empty bucket stores
      `post` and `post.html`, and `get` returns the body under both. */
  lemma HtmlPostScenario(inferMimetype: string -> string)
    ensures
      var html := "<html><body>hi</body></html>";
      var b := Put(map[], "post", html, Some("text/html"), inferMimetype);
      && b.Keys == {"post", "post.html"}
      && Get(b, "post") == Some(StoredObject(html, "text/html"))
      && Get(b, "post.html") == Some(StoredObject(html, "text/html"))
  {
    var html := "<html><body>hi</body></html>";
    PostIsAKey();
    var b := Put(map[], "post", html, Some("text/html"), inferMimetype);
    assert NeedsHtmlTwin("text/html", "post");
    assert b.Keys == {"post"} + {"post.html"};
    PutThenGet(map[], "post", html, Some("text/html"), inferMimetype);
    PutThenGetTwin(map[], "post", html, inferMimetype);
  }

  /** Continued (test/mirrorpublisher.ts:104-106): `delete('post',
      'text/html')` removes both keys and empties the bucket again. */
  lemma HtmlPostDeleted(inferMimetype: string -> string)
    ensures
      var b := Put(map[], "post", "<html><body>hi</body></html>", Some("text/html"), inferMimetype);
      && Delete(b, "post", Some("text/html")) == map[]
      && !Exists(Delete(b, "post", Some("text/html")), "post.html")
  {
    PostIsAKey();
    DeleteUndoesHtmlPut(map[], "post", "<html><body>hi</body></html>", inferMimetype);
  }

  /** `post` is already a normal key, and has no `.html` suffix. */
  lemma PostIsAKey()
    ensures WellFormedKey("post") && NormalizePath("post") == "post"
    ensures !HasHtmlSuffix("post") && "post" + ".html" == "post.html"
  {
    assert forall k :: 0 <= k < |"post"| ==> "post"[k] != '/';
    NormalizeFixesExactlyWellFormed("post");
  }

  /** `put` as written never stores the `.html` twin that `put` promises:
      after an HTML `put` of a suffix-less key the twin is missing and the
      call rejects. */
  lemma PutAsWrittenLosesHtmlTwin(b: Bucket, p: string, body: string, inferMimetype: string -> string)
    requires !HasHtmlSuffix(NormalizePath(p)) && NormalizePath(p) + ".html" !in b
    ensures
      var written := PutAsWritten(b, p, body, Some("text/html"), inferMimetype);
      var intended := Put(b, p, body, Some("text/html"), inferMimetype);
      && written.rejected
      && NormalizePath(p) + ".html" !in written.bucket
      && NormalizePath(p) + ".html" in intended
      && written.bucket != intended
  {
    var key := NormalizePath(p);
    assert |key + ".html"| > |key|;
  }
}

=== FILE: util_flatten.dfy ===
/** `flatten` of util.js:35-40: `reduce` with `concat` and no initial value,
    which is why the empty list needs its own branch. */
module UtilFlatten {

  /** The in-order concatenation of the inner lists, written right to left:
      the reference `flatten` is measured against. */
  ghost function ConcatAll<T>(xss: seq<seq<T>>): seq<T> {
    if |xss| == 0 then [] else xss[0] + ConcatAll(xss[1..])
  }

  /** The sum of the inner lengths. */
  ghost function TotalLength<T>(xss: seq<seq<T>>): int {
    if |xss| == 0 then 0 else |xss[0]| + TotalLength(xss[1..])
  }

  /** `reduce` from the left: the accumulator absorbs one inner list at a
      time. */
  function Reduce<T>(acc: seq<T>, rest: seq<seq<T>>): (r: seq<T>)
    decreases |rest|
    ensures r == acc + ConcatAll(rest)
  {
    if |rest| == 0 then acc
    else
      var r := Reduce(acc + rest[0], rest[1..]);
      assert acc + rest[0] + ConcatAll(rest[1..]) == acc + (rest[0] + ConcatAll(rest[1..]));
      r
  }

  /** `flatten(arrarr)`: `[]` for no lists, otherwise the first list
      concatenated with each of the others in turn. */
  function Flatten<T>(xss: seq<seq<T>>): (r: seq<T>)
    ensures r == ConcatAll(xss)
    ensures |xss| == 0 ==> r == []
  {
    if |xss| == 0 then [] else Reduce(xss[0], xss[1..])
  }

  /** The length of `flatten(xs)` is the sum of the inner lengths. */
  lemma {:induction false} FlattenLength<T>(xss: seq<seq<T>>)
    ensures |Flatten(xss)| == TotalLength(xss)
  {
    if |xss| > 0 {
      FlattenLength(xss[1..]);
    }
  }

  /** Flattening a single list gives that list back. */
  lemma FlattenSingle<T>(a: seq<T>)
    ensures Flatten([a]) == a
  {
    assert [a][1..] == [];
  }

  /** Every element of the result comes from some inner list, and every
      element of every inner list is in the result. */
  lemma {:induction false} FlattenMembers<T>(xss: seq<seq<T>>, x: T)
    ensures x in Flatten(xss) <==> exists i :: 0 <= i < |xss| && x in xss[i]
  {
    if |xss| > 0 {
      FlattenMembers(xss[1..], x);
      if exists i :: 0 <= i < |xss[1..]| && x in xss[1..][i] {
        var i :| 0 <= i < |xss[1..]| && x in xss[1..][i];
        assert x in xss[i + 1];
      }
      if exists i :: 0 <= i < |xss| && x in xss[i] {
        var i :| 0 <= i < |xss| && x in xss[i];
        if i > 0 {
          assert x in xss[1..][i - 1];
        }
      }
    }
  }

  /** The reference concatenation distributes over splitting the outer
      list. */
  lemma {:induction false} ConcatAllAppend<T>(xss: seq<seq<T>>, yss: seq<seq<T>>)
    ensures ConcatAll(xss + yss) == ConcatAll(xss) + ConcatAll(yss)
  {
    if |xss| == 0 {
      assert xss + yss == yss;
    } else {
      var zss := xss + yss;
      assert zss[0] == xss[0] && zss[1..] == xss[1..] + yss;
      ConcatAllAppend(xss[1..], yss);
      calc {
        ConcatAll(zss);
        xss[0] + ConcatAll(xss[1..] + yss);
        xss[0] + (ConcatAll(xss[1..]) + ConcatAll(yss));
        (xss[0] + ConcatAll(xss[1..])) + ConcatAll(yss);
      }
    }
  }

  /** Flattening distributes over splitting the outer list. */
  lemma FlattenAppend<T>(xss: seq<seq<T>>, yss: seq<seq<T>>)
    ensures Flatten(xss + yss) == Flatten(xss) + Flatten(yss)
  {
    ConcatAllAppend(xss, yss);
  }
}

=== FILE: wrappers.dfy ===
/** Option and Result, the failure-compatible wrappers the rest of the model
    uses for JavaScript's `undefined` and for thrown errors. */
module Wrappers {

  /** `None` stands for a value the source leaves `undefined`. */
  datatype Option<+T> = None | Some(value: T) {

    function GetOr(default: T): (r: T)
      ensures Some? ==> r == value
      ensures None? ==> r == default
    {
      match this
      case Some(v) => v
      case None => default
    }
  }

  /** `Failure` stands for an exception thrown by the source. */
  datatype Result<+T, +E> = Success(value: T) | Failure(error: E) {

    predicate IsFailure() {
      Failure?
    }

    function PropagateFailure<U>(): Result<U, E>
      requires Failure?
    {
      Failure(error)
    }

    function Extract(): T
      requires Success?
    {
      value
    }
  }

  /** The outcome of `xs.map(f)` where `f` may throw: the first failure in
      order wins, otherwise every value, in order. `rs[i]` is `f(xs[i])`. */
  function CollectResults<T, E>(rs: seq<Result<T, E>>): (r: Result<seq<T>, E>)
    ensures r.Success? <==> forall i :: 0 <= i < |rs| ==> rs[i].Success?
    ensures r.Success? ==> |r.value| == |rs|
    ensures r.Success? ==> forall i :: 0 <= i < |rs| ==> rs[i] == Success(r.value[i])
    ensures r.Failure? ==>
      exists i :: 0 <= i < |rs| && rs[i] == Failure(r.error)
                  && forall j :: 0 <= j < i ==> rs[j].Success?
  {
    if |rs| == 0 then Success([])
    else match rs[0]
      case Failure(e) => Failure(e)
      case Success(v) =>
        match CollectResults(rs[1..])
        case Failure(e) =>
          ghost var i :| 0 <= i < |rs[1..]| && rs[1..][i] == Failure(e)
                         && forall j :: 0 <= j < i ==> rs[1..][j].Success?;
          assert rs[i + 1] == Failure(e);
          Failure(e)
        case Success(vs) => Success([v] + vs)
  }

  /** Indexing into `a + b` past `a` reads `b`. */
  lemma AppendIndex<T>(a: seq<T>, b: seq<T>)
    ensures forall j :: 0 <= j < |b| ==> (a + b)[|a| + j] == b[j]
  {
  }
}
